=== FILE: README.md ===
# rpi-random-player in Dafny

A model of the core of `RandomVideoPlayer` (`player.py`), a kiosk program
for a Raspberry Pi. It plays a random video from USB storage when S is
pressed, stops on E, and moves on to another random video when the player
process exits by itself. The model covers five parts:

- **Classifier** (`classifier.dfy`): the rule that turns the probe's codec,
  frame size and pixel format into one of the buckets `safe`, `medium` or
  `risky`. Any probe failure gives `safe`.
- **Cache** (`cache.dfy`): the classification cache keyed by path. An entry
  is valid only while the file's stat (mtime in nanoseconds, size) still
  matches. The module also models the JSON document the cache is stored
  as, the loader, the saver, and the round trip between them.
- **Selector** (`selector.dfy`): `select_video` (prefer `safe`; the coin
  sometimes picks `medium`; otherwise `medium`, then `risky`, then
  anything) and `select_video_from_candidates` (cached videos first; when
  none is cached, probe one random uncached file and record its bucket).
- **Storage** (`storage.dfy`, `paths.dfy`, `text.dfy`):
  - USB mount discovery from the mount-table lines and from the
    sub-directories of `/media`, `/run/media` and `/mnt`, sorted and
    de-duplicated in `pathlib` order.
  - The recursive scan for `.mp4` and `.mkv` files.
- **Controller** (`controller.dfy`):
  - The held player process and the `auto_restart` flag.
  - The START, STOP and exit transitions.
  - The main loop's order within one iteration: key events first, then
    the exit check.
  - The `finally` stop when the loop ends.

Randomness and the operating system are inputs:
- A `Draw` holds the coin `random.random() > 0.8` and an index for each
  `random.choice`. A choice is `xs[pick % |xs|]`.
- The stat results, the mount table, the directory listings and the
  probe's output are given as maps and values.
- Player processes are opaque handles. Spawning, signalling and reaping
  them are recorded as effects, and `Replay` checks those effects against
  the set of held processes: those spawned and not yet signalled or reaped.

The model follows `player.py` in what it leaves out and in how it advances:
- Nothing avoids playing the same file twice in a row.
- The scan has no time limit.
- Nothing is mounted by the player itself.
- Every auto-advance rescans the storage and selects again, exactly like
  a START.

## Model

| member | source | states |
|---|---|---|
| `Classifier.Decide` | player.py:361-373 | H.264 below 4K is safe; HEVC/H.265 is safe below 4K without 10-bit, medium at 4K without 10-bit, risky at 4K with 10-bit; every other codec is safe |
| `Classifier.Classify` | player.py:342-359 | a failed probe classifies as safe |
| `Classifier.ClassifyFourKHevc` | player.py:369-372 | a probed 4K-class HEVC stream is risky when its lower-cased pixel format contains "10" and medium otherwise |
| `Classifier.ClassifyNonSafe` | player.py:365-373 | only a successfully probed 4K-class HEVC stream is ever non-safe, and it is risky exactly when its lower-cased pixel format contains "10" |
| `Classifier.ClassifyExamples` | player.py:356-373 | 720p H.264 is safe, 2160p 10-bit HEVC in upper case is risky, 2160p 8-bit HEVC is medium |
| `Classifier.ClassifyMissingFields` | player.py:356-359 | a stream reporting none of the four fields is safe (the missing fields read as "" and 0) |
| `Text.Contains` | player.py:363 | substring test: true exactly when the pattern occurs at some position |
| `Text.Lower` | player.py:356-359 | lower-casing maps each character on its own: ASCII capitals and the Kelvin sign to lower case, everything else unchanged |
| `Text.Words` | player.py:310 | whitespace splitting yields only non-empty, space-free fields |
| `Text.WordsUnwords` | player.py:310 | splitting fields joined by single spaces gives the fields back |
| `Text.WordsOfWord` | player.py:310 | a run of non-whitespace characters splits to itself |
| `Text.WordsSplitAtSpace` | player.py:310 | any whitespace character separates: the text on either side splits independently, so tabs, runs of blanks and leading or trailing blanks produce no empty fields |
| `Cache.CachedBucketFor` | player.py:237-251 | a hit exactly when the file can be stat'ed, has an entry, and both mtime and size match; the hit is the recorded bucket |
| `Cache.UpdateCache` | player.py:253-260 | an unstat-able file leaves the cache unchanged; otherwise the path gets an entry matching its current stat with the given bucket, and every other entry is kept |
| `Cache.LookupAfterUpdate` | player.py:237-260 | after an update, looking the path up under the same stat returns the new bucket; every other path answers as before |
| `Cache.ChangedFileMisses` | player.py:248 | a file whose stat changed after it was recorded is a miss |
| `Cache.AsInt` | player.py:280 | the integer check accepts JSON integers, giving their value, and booleans (bool is an int subclass), giving 1 and 0, and nothing else |
| `Cache.EntryFromJson` | player.py:275-282 | a stored value is kept exactly when it is an object with integer `mtime_ns`, integer `size` and string `bucket`, whatever other members it has; the entry carries those three values |
| `Cache.EntriesFromJson` | player.py:272-283 | the loaded cache holds exactly the well-formed entries, each as decoded |
| `Cache.LoadCacheAsWritten` | player.py:262-286 | the loader as written fails exactly when the document is an object whose `entries` member is present and not an object; otherwise an absent or non-object document loads as empty, and an `entries` object loads its well-formed entries |
| `Cache.LoadCrashesOnListEntries` | player.py:272-274 | `{"entries": []}` makes the loader as written fail |
| `Cache.LoadCache` | player.py:262-286 | the corrected loader: a document without an `entries` object loads as the empty cache; otherwise the cache holds its well-formed entries |
| `Cache.LoadCacheAgreesWhenNoCrash` | player.py:262-286 | wherever the loader as written succeeds, the corrected loader gives the same cache |
| `Cache.SaveCache` | player.py:288-301 | the saved document is an object with the single key `entries`, whose keys are exactly the cached paths |
| `Cache.EntryRoundTrip` | player.py:291-298 | decoding an encoded entry gives the entry back |
| `Cache.SaveLoadRoundTrip` | player.py:262-301 | saving and then loading reproduces the cache, with either loader |
| `Selector.Choice` | player.py:385-394 | a random choice is an element of the list |
| `Selector.ChoiceReaches` | player.py:385-394 | every element of the list is chosen by some draw |
| `Selector.WithBucket` | player.py:379-381 | the filtered list holds exactly the videos with that bucket |
| `Selector.PoolIsEligible` | player.py:379-394 | the list drawn from holds exactly the eligible videos: safe (or medium when the coin says so and one exists) if a safe video exists, else medium, else risky, else all |
| `Selector.SelectVideo` | player.py:375-394 | none exactly for an empty list; otherwise an eligible video |
| `Selector.SelectVideoReachesEligible` | player.py:383-394 | every eligible video can be chosen: some draw of the index selects it |
| `Selector.CachedPool` | player.py:206-214 | the cached pool holds exactly the candidates with a valid hit, each with its cached bucket |
| `Selector.Uncached` | player.py:207-212 | the uncached list holds exactly the candidates without a valid hit |
| `Selector.PartitionSizes` | player.py:209-214 | each candidate lands in exactly one of the two lists |
| `Selector.SelectFromCandidates` | player.py:205-235 | none exactly for no candidates; the selection is a candidate. With a valid hit, the cache is untouched and the selection is an eligible cached video. Without one, the probed bucket is returned and recorded |
| `Selector.ColdStartReachesAnyUncached` | player.py:228-233 | with no valid hit, every candidate is the probed file under some draw |
| `Selector.ColdStartRecordsProbe` | player.py:228-233 | with no valid hit, the probed file, when stat-able, is a hit afterwards with the probed bucket |
| `Paths.PathLessTransitive` | player.py:326 | the `Path` order used by `sorted` is transitive |
| `Paths.PathLessTotal` | player.py:326 | two distinct paths are always ordered one way or the other |
| `Paths.VideoNameShape` | player.py:199 | a file is a video exactly when some character precedes a case-insensitive `.mp4`/`.mkv` ending |
| `Paths.KelvinExtensionIsVideo` | player.py:199 | `clip.m\u212Av` is a video, because `lower()` maps the Kelvin sign to `k` |
| `Storage.MountFromLine` | player.py:310-317 | a line contributes exactly when it has at least three whitespace-separated fields, the first starts with `/dev/sd` and the third is an allowed file system; what it contributes is the second field |
| `Storage.MountLineFields` | player.py:310-317 | a line contributes its mount point exactly when it has at least three fields, its source starts with `/dev/sd` and its type is one of the six allowed file systems |
| `Storage.TableMounts` | player.py:307-317 | the table's contribution is exactly the mount points of its accepted lines |
| `Storage.RootMounts` | player.py:319-324 | the roots contribute exactly the sub-directories of the roots that exist |
| `Storage.SortedSet` | player.py:326 | sorting a set gives a strictly increasing list with the same elements |
| `Storage.SortedUnique` | player.py:326 | a strictly increasing list is determined by its elements |
| `Storage.DiscoverUsbMounts` | player.py:305-326 | the mounts are strictly increasing and are exactly the accepted table mount points together with the scan roots' sub-directories |
| `Storage.RootChildrenAlwaysScanned` | player.py:319-324 | a sub-directory of an existing scan root is scanned whether or not the mount table exists |
| `Storage.VideoFiles` | player.py:198-200 | from one listing, exactly the regular files with a video extension |
| `Storage.ScanCandidates` | player.py:193-203 | the candidates are exactly the video files listed under some discovered mount |
| `Controller.Initial` | player.py:50-56 | a new player holds no process and has auto-restart clear |
| `Controller.ConstructAsWritten` | player.py:50-56 | the constructor fails exactly where the cache loader as written fails, and otherwise starts as `Initial` |
| `Controller.InitialInv` | player.py:50-56 | the initial state satisfies the controller invariant |
| `Controller.StopPlayback` | player.py:179-191 | stop clears auto-restart and the process; it signals exactly the held process, or nothing when none is held |
| `Controller.StopAccounts` | player.py:179-191 | stop leaves nothing held, and its effects release exactly what was held |
| `Controller.ScanAndSpawn` | player.py:157-177 | no candidates clears auto-restart and spawns nothing; otherwise one player is spawned with the base command on the file the selector chose, auto-restart is set, and the cache is the one the selection left (with a cold-start probe recorded) |
| `Controller.SpawnAccounts` | player.py:157-177 | from nothing held, auto-restart is set exactly when a player is held, and the effects account for it |
| `Controller.StartRandomVideo` | player.py:152-177 | a forced start with a player first terminates it. With nothing to play, auto-restart is cleared and nothing is spawned. Otherwise the last effect spawns a fresh handle on the file the selector chose from the current cache, and the cache afterwards is the one the selection left |
| `Controller.StartAccounts` | player.py:152-177 | a forced start, or a start with nothing held, keeps the invariant, never leaves an old player unaccounted for, and terminates the old player before spawning the new one |
| `Controller.HandleEvent` | player.py:115-136 | a key-down of S is a forced start, a key-down of E is a stop, and every other event changes nothing; no event reaps a player |
| `Controller.HandleEvents` | player.py:80-81 | handling a batch of events never reaps a player, and every player it spawns gets a handle newly issued during the batch, no two the same |
| `Controller.HandleEventsAccounts` | player.py:80-81 | handling a batch of events keeps the invariant, and the effects account for the held set |
| `Controller.CheckPlaybackExit` | player.py:138-150 | no change without a held player or while it runs. On exit the player is reaped, and an unforced start follows only when auto-restart is set |
| `Controller.CheckExitAccounts` | player.py:138-150 | the exit check keeps the invariant, and the effects account for the held set |
| `Controller.ExitWithoutAutoRestartSpawnsNothing` | player.py:146-150 | an exit with auto-restart clear starts nothing; under the invariant this state does not occur, because a held player always has auto-restart set |
| `Controller.TickAdvances` | player.py:80-83 | an iteration that sees the held player's exit after its events, with something to play, ends with a new player on a fresh handle and auto-restart set |
| `Controller.ExitAdvancesWhilePlaying` | player.py:146-150 | under the invariant, an exit with something to play reaps the player and spawns the next one |
| `Controller.Tick` | player.py:64-83 | while the player runs an iteration is just its events; otherwise the events' effects come first and a player still held after them is reaped next |
| `Controller.Run` | player.py:58-89 | from any start state `run` ends with nothing held and auto-restart clear, after the iterations' effects and with the cache they left |
| `Controller.TickAccounts` | player.py:63-83 | one loop iteration keeps the invariant, its effects account exactly for the held set, and at no point within it are two players held (spawned and not yet signalled or reaped) |
| `Controller.RunTicksAccounts` | player.py:64-83 | the same holds over any number of iterations |
| `Controller.RunLeavesNothingBehind` | player.py:58-89 | when `run` returns after being stopped between iterations, nothing is held, auto-restart is clear, and every player started was signalled or reaped exactly once; after every prefix of the run's effects at most one player is held |
| `Controller.NoCommandNoChange` | player.py:115-121 | events carrying no command leave the state unchanged and have no effects |
| `Controller.LastStopLeavesIdle` | player.py:134-136 | if the last command in a batch is STOP, nothing is held afterwards and auto-restart is clear |
| `Controller.StopBeatsExitInSameTick` | player.py:80-83 | when the last command in an iteration is STOP, the exit check that follows does nothing, so there is no auto-advance |

## Left out

- Keyboard devices: finding, grabbing, reading and re-opening them (`player.py:59-113`, including the `select` timeout). An iteration's events are an input.
- A failed device read ends `run`. evdev's `InputDevice.read()` returns a generator, so its `OSError` is raised by the `for event in events` loop at `player.py:80`, outside the `try` at lines 73-78, and the reopen branch at lines 75-78 does not run. The exception leaves the loop through the `finally` stop. `Run` covers this ending: the last iteration holds the events handled before the failure with no exit observed, and the stop follows. evdev is not part of this model, so this reading of it is not proved.
- `Spawn` never fails in the model. A failing `Popen` at `player.py:172` (for example, no `mpv` installed) raises after line 171 has set `auto_restart`. The exception leaves `run` through the `finally` stop, which clears the flag, and nothing is held.
- Controller.RunLeavesNothingBehind: `run` is interrupted only between iterations. A `KeyboardInterrupt` that lands between `self.mpv_process = None` (line 186) and the `killpg` at line 188, or between `Popen` returning and the assignment at line 172, leaves an `mpv` process running in its own session and never signalled. The lemma does not cover these two places.
- A signalled player counts as gone at once. `stop_playback` (`player.py:185-191`) sends `SIGTERM` and never waits, so after a forced START (`player.py:153-155`, then the spawn at line 172) the old `mpv` may still be shutting down while the new one starts. "Never two held" means never two players that the controller is responsible for and has not signalled; it says nothing about how many `mpv` processes the operating system is running at that moment.
- Controller.HandleEvent: every event is taken to reach the command test. The code calls `evdev.categorize(event)` (`player.py:119`) on every `EV_KEY` event first. For a key code that evdev's `ecodes.keys` table does not name, that call raises `KeyError`, which leaves `run` through the `finally` stop. The model treats such an event as carrying no command. evdev is not part of this model, so this reading of it is not proved.
- Process creation and signalling are effects on opaque handles. `ProcessLookupError` from `killpg` is indistinguishable from success in the model, and other `killpg` errors, which would propagate, are not modelled.
- The probe invocation (`player.py:328-354`): running `ffprobe`, its timeout and parsing its JSON. It becomes `Probe`, which is either a failure or the four stream fields.
- Classifier.Classify: stream fields are taken as already typed. A non-numeric `width`/`height` (where `int()` raises outside the handler), a non-string codec or pixel format, or a stream that is not an object are not modelled.
- Text.Lower: lower-cases ASCII capitals and the Kelvin sign (U+212A, which becomes `k`) and leaves every other character alone. Python's `str.lower` changes other characters too, and `İ` (U+0130) even becomes two characters. None of those results contains a character of `h264`, `hevc`, `h265`, `10`, `.mp4` or `.mkv`, so the codec, pixel-format and extension tests decide the same way.
- Filesystem I/O: reading and writing the cache file, `/proc/mounts`, `iterdir`, `rglob`, `is_dir`, `is_file` and `stat` results are inputs. Errors that `iterdir` or `rglob` would raise are not modelled.
- The mount table is given as its lines. The UTF-8 decoding with `errors="ignore"` and the line splitting of `splitlines()` (`player.py:309`) are not modelled.
- Storage.MountLineFields: states the filter for lines whose fields are separated by single spaces, the format the kernel writes to `/proc/mounts`. `MountFromLine` states the same filter for any line, in terms of its whitespace-split fields, and `WordsOfWord` and `WordsSplitAtSpace` fix those fields for any whitespace.
- A file is listed once for every discovered mount it lies under. With `/media/pi` (a sub-directory of a scan root) and `/media/pi/USB` (a mount-table entry) both discovered, every file on the stick is a candidate twice, and `random.choice` weights it double. The model shows which files can be chosen, not how often.
- Controller.Initial: builds the cache with the corrected loader of the Findings row. Where the loader as written fails, the program never gets a start state; `ConstructAsWritten` states that, and `RunLeavesNothingBehind` also covers the start states that only the corrected loader gives.
- Paths are canonical strings. `Path(key)` normalisation of cache keys (repeated or trailing separators) is not modelled.
- Cache.CachedBucketFor: one stat snapshot serves a whole selection, whereas the code calls `stat()` separately for the lookup and for the update.
- The save side of `_update_cache` (`player.py:260`) is modelled as the document `SaveCache` produces. Write failures are swallowed by the code and do not change the in-memory cache.
- The probability 0.8 behind the coin: the coin is an input, so the model says which videos can be chosen, not how likely each is.
- Logging, argument parsing and the keyboard diagnostic command (`player.py:397-474`).
- The `running` flag never changes inside the class. The loop is modelled as a finite sequence of iterations that ends with the `finally` stop, as the `KeyboardInterrupt` path and a failed read do.

## Findings

| source | as written | input that shows it | evidently intended | confidence | as-written member | corrected member |
|---|---|---|---|---|---|---|
| player.py:272-274 | `entries.items()` is called outside the `try`, on whatever `entries` holds | a cache file containing `{"entries": []}` (or `null`, a number or a string under `entries`) | a malformed cache loads as empty and never stops the player from starting | high, not executed | `Cache.LoadCrashesOnListEntries` | `Cache.LoadCache` |

=== FILE: cache.dfy ===
/** The classification cache: a map from path to the file identity
    (modification time in nanoseconds, size) it was classified under and the
    bucket it got, together with the JSON document it is persisted as. */
module Cache {
  import opened Wrappers
  import opened Paths

  /** What `path.stat()` reports about a file. */
  datatype FileStat = FileStat(mtimeNs: int, size: int)

  /** `path.stat()` for every path at one moment; a path absent from the
      table is one whose stat raised `OSError`. */
  type StatTable = map<Path, FileStat>

  datatype CacheEntry = CacheEntry(mtimeNs: int, size: int, bucket: string)

  type ClassificationCache = map<Path, CacheEntry>

  /** An entry describes the live file when both its time and size agree. */
  predicate Matches(e: CacheEntry, st: FileStat) {
    e.mtimeNs == st.mtimeNs && e.size == st.size
  }

  /** `_cached_bucket_for`: the recorded bucket, but only for a file that can
      be stat'ed and whose stat is exactly the one recorded. */
  function CachedBucketFor(cache: ClassificationCache, stats: StatTable, p: Path): (r: Option<string>)
    ensures r.Some? <==> p in stats && p in cache && Matches(cache[p], stats[p])
    ensures r.Some? ==> r.value == cache[p].bucket
  {
    if p !in stats then None
    else if p !in cache then None
    else if Matches(cache[p], stats[p]) then Some(cache[p].bucket)
    else None
  }

  /** `_update_cache`: records the bucket under the file's current stat; a
      file that cannot be stat'ed leaves the cache as it was. */
  function UpdateCache(cache: ClassificationCache, stats: StatTable, p: Path, bucket: string)
    : (c: ClassificationCache)
    ensures p !in stats ==> c == cache
    ensures p in stats ==> c.Keys == cache.Keys + {p}
    ensures p in stats ==> Matches(c[p], stats[p]) && c[p].bucket == bucket
    ensures forall q :: q in cache && q != p ==> q in c && c[q] == cache[q]
  {
    if p !in stats then cache
    else cache[p := CacheEntry(stats[p].mtimeNs, stats[p].size, bucket)]
  }

  /** After recording `bucket` for `p`, a lookup of `p` under the same stat
      answers `bucket`, and every other path answers as before. */
  lemma LookupAfterUpdate(cache: ClassificationCache, stats: StatTable, p: Path, q: Path, bucket: string)
    ensures CachedBucketFor(UpdateCache(cache, stats, p, bucket), stats, q) ==
            if q != p then CachedBucketFor(cache, stats, q)
            else if p in stats then Some(bucket)
            else None
  {
  }

  /** A file whose size or modification time changed after it was recorded
      misses, so it is classified again rather than served stale. */
  lemma ChangedFileMisses(cache: ClassificationCache, stats: StatTable, later: StatTable, p: Path, bucket: string)
    requires p in stats && p in later && later[p] != stats[p]
    ensures CachedBucketFor(UpdateCache(cache, stats, p, bucket), later, p) == None
  {
  }

  // ---------------------------------------------------------------------
  // The persisted document

  /** A parsed JSON value, as `json.loads` produces it; an object is a map
      because repeated keys keep the last value. */
  datatype Json =
    | JNull
    | JBool(b: bool)
    | JInt(i: int)
    | JFloat(literal: string)
    | JString(s: string)
    | JArray(items: seq<Json>)
    | JObject(members: map<string, Json>)

  /** `obj.get(key)`: a missing key reads as null. */
  function Get(obj: map<string, Json>, key: string): Json {
    if key in obj then obj[key] else JNull
  }

  /** `isinstance(v, int)`: true of JSON integers and, since Python's bool
      is a subclass of int, of `true` and `false` as well. */
  function AsInt(v: Json): (r: Option<int>)
    ensures r.Some? <==> v.JInt? || v.JBool?
    ensures v.JInt? ==> r == Some(v.i)
    ensures v.JBool? ==> r == Some(if v.b then 1 else 0)
  {
    match v
    case JInt(i) => Some(i)
    case JBool(b) => Some(if b then 1 else 0)
    case _ => None
  }

  /** One value of the `entries` object: kept only when it is an object with
      an integer `mtime_ns`, an integer `size` and a string `bucket`. */
  function EntryFromJson(v: Json): (r: Option<CacheEntry>)
    ensures r.Some? <==>
            && v.JObject?
            && AsInt(Get(v.members, "mtime_ns")).Some?
            && AsInt(Get(v.members, "size")).Some?
            && Get(v.members, "bucket").JString?
    ensures r.Some? ==> r.value.bucket == Get(v.members, "bucket").s
    ensures r.Some? ==> && r.value.mtimeNs == AsInt(Get(v.members, "mtime_ns")).value
                        && r.value.size == AsInt(Get(v.members, "size")).value
  {
    if !v.JObject? then None
    else
      var mtime := AsInt(Get(v.members, "mtime_ns"));
      var size := AsInt(Get(v.members, "size"));
      var bucket := Get(v.members, "bucket");
      if mtime.None? || size.None? || !bucket.JString? then None
      else Some(CacheEntry(mtime.value, size.value, bucket.s))
  }

  /** The cache built from an `entries` object: every well-formed value, and
      nothing else. */
  function EntriesFromJson(entries: map<string, Json>): (c: ClassificationCache)
    ensures forall k :: k in c <==> k in entries && EntryFromJson(entries[k]).Some?
    ensures forall k :: k in c ==> c[k] == EntryFromJson(entries[k]).value
  {
    map k | k in entries && EntryFromJson(entries[k]).Some? :: EntryFromJson(entries[k]).value
  }

  datatype LoadOutcome = Loaded(cache: ClassificationCache) | Crashed

  /** `_load_classification_cache` as written. `file` is None when the cache
      file is absent, unreadable or not JSON. The value under `entries` is
      used through `.items()` outside the exception handler, so a document
      whose `entries` is anything but an object raises out of the
      constructor. */
  function LoadCacheAsWritten(file: Option<Json>): (r: LoadOutcome)
    ensures r.Crashed? <==>
              && file.Some? && file.value.JObject?
              && "entries" in file.value.members
              && !file.value.members["entries"].JObject?
    ensures r.Loaded? && HasEntriesObject(file) ==>
              r.cache == EntriesFromJson(file.value.members["entries"].members)
    ensures r.Loaded? && !HasEntriesObject(file) ==> r.cache == map[]
  {
    match file
    case None => Loaded(map[])
    case Some(payload) =>
      if !payload.JObject? then Loaded(map[])
      else
        var entries := if "entries" in payload.members then payload.members["entries"] else JObject(map[]);
        if entries.JObject? then Loaded(EntriesFromJson(entries.members)) else Crashed
  }

  /** A cache file `{"entries": []}` makes the as-written loader crash. */
  lemma LoadCrashesOnListEntries()
    ensures LoadCacheAsWritten(Some(JObject(map["entries" := JArray([])]))) == Crashed
  {
  }

  /** The document is an object whose `entries` member is itself an object. */
  predicate HasEntriesObject(file: Option<Json>) {
    && file.Some?
    && file.value.JObject?
    && "entries" in file.value.members
    && file.value.members["entries"].JObject?
  }

  /** The loader as intended: any document that does not hold an `entries`
      object loads as the empty cache, and never fails. */
  function LoadCache(file: Option<Json>): (c: ClassificationCache)
    ensures !HasEntriesObject(file) ==> c == map[]
    ensures HasEntriesObject(file) ==> c == EntriesFromJson(file.value.members["entries"].members)
  {
    match file
    case None => map[]
    case Some(payload) =>
      if payload.JObject? && "entries" in payload.members && payload.members["entries"].JObject? then
        EntriesFromJson(payload.members["entries"].members)
      else map[]
  }

  /** Wherever the as-written loader does not crash, the intended loader
      returns the same cache. */
  lemma LoadCacheAgreesWhenNoCrash(file: Option<Json>)
    ensures LoadCacheAsWritten(file).Loaded? ==> LoadCacheAsWritten(file).cache == LoadCache(file)
    ensures LoadCacheAsWritten(file).Crashed? ==> LoadCache(file) == map[]
  {
  }

  function EntryToJson(e: CacheEntry): Json {
    JObject(map["mtime_ns" := JInt(e.mtimeNs), "size" := JInt(e.size), "bucket" := JString(e.bucket)])
  }

  /** `_save_classification_cache`: `{"entries": {path: {mtime_ns, size, bucket}}}`. */
  function SaveCache(c: ClassificationCache): (doc: Json)
    ensures doc.JObject? && doc.members.Keys == {"entries"}
    ensures doc.members["entries"].JObject? && doc.members["entries"].members.Keys == c.Keys
  {
    JObject(map["entries" := JObject(map p | p in c :: EntryToJson(c[p]))])
  }

  lemma EntryRoundTrip(e: CacheEntry)
    ensures EntryFromJson(EntryToJson(e)) == Some(e)
  {
  }

  /** Saving and then loading reproduces the cache exactly, with the loader
      as written and with the intended one. */
  lemma SaveLoadRoundTrip(c: ClassificationCache)
    ensures LoadCache(Some(SaveCache(c))) == c
    ensures LoadCacheAsWritten(Some(SaveCache(c))) == Loaded(c)
  {
    var doc := SaveCache(c);
    var entries := doc.members["entries"].members;
    forall p | p in c
      ensures EntryFromJson(entries[p]) == Some(c[p])
    {
      EntryRoundTrip(c[p]);
    }
    assert EntriesFromJson(entries) == c;
  }
}

=== FILE: classifier.dfy ===
/** The decision rule of `classify_video`: from the first video stream's
    codec, frame size and pixel format to a risk bucket. */
module Classifier {
  import opened Wrappers
  import opened Text

  /** The widest frame side still treated as HD; above it a stream is 4K-class. */
  const MaxHdDimension: int := 1920

  datatype Bucket = Safe | Medium | Risky {
    /** The string stored in the cache and compared by the selector. */
    function Label(): (s: string)
      ensures s in {"safe", "medium", "risky"}
    {
      match this
      case Safe => "safe"
      case Medium => "medium"
      case Risky => "risky"
    }
  }

  /** The four stream fields the probe reports; a field the probe left out
      (or reported as null) is None. */
  datatype StreamFields = StreamFields(
    codecName: Option<string>,
    width: Option<int>,
    height: Option<int>,
    pixFmt: Option<string>)

  /** What the external probe produced: nothing usable (missing tool,
      timeout, non-zero exit, unparsable output, no stream), or the fields. */
  datatype Probe = ProbeFailed | Probed(stream: StreamFields)

  predicate IsHevc(codec: string) {
    codec == "hevc" || codec == "h265"
  }

  predicate IsFourK(width: int, height: int) {
    (if width >= height then width else height) > MaxHdDimension
  }

  predicate IsTenBit(pixFmt: string) {
    Contains(pixFmt, "10")
  }

  /** The rule proper, on already lower-cased codec and pixel format. */
  function Decide(codec: string, width: int, height: int, pixFmt: string): (b: Bucket)
    ensures codec == "h264" && !IsFourK(width, height) ==> b == Safe
    ensures IsHevc(codec) && !IsFourK(width, height) && !IsTenBit(pixFmt) ==> b == Safe
    ensures IsHevc(codec) && IsFourK(width, height) && !IsTenBit(pixFmt) ==> b == Medium
    ensures IsHevc(codec) && IsFourK(width, height) && IsTenBit(pixFmt) ==> b == Risky
    ensures !(IsHevc(codec) && IsFourK(width, height)) ==> b == Safe
  {
    var fourK := IsFourK(width, height);
    var tenBit := IsTenBit(pixFmt);
    if codec == "h264" && !fourK then Safe
    else if IsHevc(codec) && !fourK && !tenBit then Safe
    else if IsHevc(codec) && fourK && !tenBit then Medium
    else if IsHevc(codec) && fourK && tenBit then Risky
    else Safe
  }

  /** `classify_video`: absent or empty fields read as "" and 0, the codec
      and pixel format are lower-cased, and any probe failure is `safe`. */
  function Classify(probe: Probe): (b: Bucket)
    ensures probe.ProbeFailed? ==> b == Safe
  {
    match probe
    case ProbeFailed => Safe
    case Probed(s) =>
      Decide(Lower(s.codecName.GetOr("")), s.width.GetOr(0), s.height.GetOr(0),
             Lower(s.pixFmt.GetOr("")))
  }

  /** Only a 4K-class HEVC stream is ever kept out of the `safe` bucket, and
      it is `risky` exactly when its pixel format names a 10-bit depth. */
  lemma ClassifyNonSafe(probe: Probe)
    requires Classify(probe) != Safe
    ensures probe.Probed?
    ensures var s := probe.stream;
            && IsHevc(Lower(s.codecName.GetOr("")))
            && IsFourK(s.width.GetOr(0), s.height.GetOr(0))
            && (Classify(probe) == Risky <==> IsTenBit(Lower(s.pixFmt.GetOr(""))))
  {
  }

  /** Conversely, a probed 4K-class HEVC stream is never `safe`: it is
      `risky` when its pixel format names a 10-bit depth and `medium`
      otherwise. */
  lemma ClassifyFourKHevc(probe: Probe)
    requires probe.Probed?
    requires IsHevc(Lower(probe.stream.codecName.GetOr("")))
    requires IsFourK(probe.stream.width.GetOr(0), probe.stream.height.GetOr(0))
    ensures Classify(probe) == if IsTenBit(Lower(probe.stream.pixFmt.GetOr(""))) then Risky else Medium
  {
  }

  /** A stream with no reported fields falls through every rule to `safe`. */
  lemma ClassifyMissingFields()
    ensures Classify(Probed(StreamFields(None, None, None, None))) == Safe
  {
  }

  /** Three sample streams: 1280x720 H.264 is `safe`, 3840x2160 10-bit HEVC
      (`yuv420p10le`, codec spelled in upper case) is `risky`, and 3840x2160
      8-bit HEVC is `medium`. */
  lemma ClassifyExamples()
    ensures Classify(Probed(StreamFields(Some("h264"), Some(1280), Some(720), Some("yuv420p")))) == Safe
    ensures Classify(Probed(StreamFields(Some("HEVC"), Some(3840), Some(2160), Some("yuv420p10le")))) == Risky
    ensures Classify(Probed(StreamFields(Some("hevc"), Some(3840), Some(2160), Some("yuv420p")))) == Medium
  {
    assert OccursAt("yuv420p10le", "10", 7);
    assert Lower("HEVC") == "hevc";
    assert Lower("yuv420p10le") == "yuv420p10le";
    var p := Lower("yuv420p");
    assert p == "yuv420p";
    ContainsNeedsFirstChar(p, "10");
  }
}

=== FILE: controller.dfy ===
/** The playback controller of `RandomVideoPlayer`: the held player
    process and the `auto_restart` flag, the START / STOP / exit
    transitions, and the per-tick order of the main loop (input events
    first, then the exit check). The player process is an opaque handle;
    what the controller does to processes is reported as effects. */
module Controller {
  import opened Wrappers
  import opened Paths
  import opened Classifier
  import opened Cache
  import opened Selector
  import opened Storage

  /** The player command line; the selected file is appended as the last
      argument. */
  const MpvBaseCommand: seq<string> :=
    ["mpv", "--fullscreen", "--hwdec=drm", "--no-terminal", "--quiet", "--no-osc", "--no-osd-bar", "--ao=alsa"]

  /** Linux input-event codes: the key event type, the E and S keys, and the
      key-down state. */
  const EvKey: int := 1
  const KeyE: int := 18
  const KeyS: int := 31
  const KeyDown: int := 1

  /** A player process; handles are never reused. */
  type Handle = nat

  datatype Effect =
    | Spawn(handle: Handle, argv: seq<string>)   // a new player in its own session
    | Terminate(handle: Handle)                 // SIGTERM to the process group
    | Reaped(handle: Handle)                    // `poll()` reported that it exited

  /** `mpv_process`, `auto_restart`, the classification cache, and the
      next unused handle. */
  datatype State = State(
    process: Option<Handle>,
    autoRestart: bool,
    nextHandle: nat,
    cache: ClassificationCache)

  datatype Step = Step(state: State, effects: seq<Effect>)

  /** Everything `start_random_video` observes: the mount table, the scan
      roots' listings, the recursive listing of each mount, file stats, the
      random draws, and what the probe reports for the file it is run on. */
  datatype World = World(
    mountTable: Option<seq<string>>,
    rootListings: map<Path, seq<DirEntry>>,
    trees: map<Path, seq<FileEntry>>,
    stats: StatTable,
    draw: Draw,
    probe: Probe)

  /** A raw input event: type, code (the key) and value (0 up, 1 down, 2 repeat). */
  datatype Event = Event(evType: int, code: int, value: int)

  /** One raw event and the world a START it triggers would see. */
  datatype Input = Input(event: Event, world: World)

  /** One loop iteration: the events read from the ready devices, whether
      the held player has exited by the time of the exit check, and the
      world an auto-advance would see. */
  datatype TickInput = TickInput(inputs: seq<Input>, exited: bool, restartWorld: World)

  /** The constructor: no process, no auto-restart, the persisted cache. */
  function Initial(persisted: Option<Json>): (s: State)
    ensures s.process.None? && !s.autoRestart
  {
    State(None, false, 0, LoadCache(persisted))
  }

  /** The constructor as written: it fails wherever the cache loader as
      written fails, and otherwise starts exactly as `Initial`. */
  function ConstructAsWritten(persisted: Option<Json>): (r: Option<State>)
    ensures r.None? <==> LoadCacheAsWritten(persisted).Crashed?
    ensures r.Some? ==> r.value == Initial(persisted)
  {
    LoadCacheAgreesWhenNoCrash(persisted);
    match LoadCacheAsWritten(persisted)
    case Crashed => None
    case Loaded(c) => Some(State(None, false, 0, c))
  }

  /** The processes the controller is responsible for. */
  function Held(s: State): set<Handle> {
    if s.process.Some? then {s.process.value} else {}
  }

  /** `stop_playback`: clears `auto_restart`, lets go of the process and
      signals its group; with no process it only clears the flag. */
  function StopPlayback(s: State): (r: Step)
    ensures r.state.process.None? && !r.state.autoRestart
    ensures r.state.cache == s.cache && r.state.nextHandle == s.nextHandle
    ensures s.process.None? ==> r.effects == []
    ensures s.process.Some? ==> r.effects == [Terminate(s.process.value)]
  {
    var cleared := s.(autoRestart := false);
    match cleared.process
    case None => Step(cleared, [])
    case Some(h) => Step(cleared.(process := None), [Terminate(h)])
  }

  /** The candidate files one scan finds. */
  function Candidates(w: World): seq<Path> {
    ScanCandidates(DiscoverUsbMounts(w.mountTable, w.rootListings), w.trees)
  }

  predicate NoSpawn(effects: seq<Effect>) {
    forall i :: 0 <= i < |effects| ==> !effects[i].Spawn?
  }

  predicate NoReap(effects: seq<Effect>) {
    forall i :: 0 <= i < |effects| ==> !effects[i].Reaped?
  }

  /** Every handle `effects` spawns was issued from the counter between
      `lo` (inclusive) and `hi` (exclusive), in increasing order, so no
      handle is spawned twice. */
  predicate FreshSpawns(effects: seq<Effect>, lo: nat, hi: nat) {
    && (forall i :: 0 <= i < |effects| && effects[i].Spawn? ==> lo <= effects[i].handle < hi)
    && (forall i, j :: 0 <= i < j < |effects| && effects[i].Spawn? && effects[j].Spawn? ==>
          effects[i].handle < effects[j].handle)
  }

  lemma FreshSpawnsAppend(e1: seq<Effect>, e2: seq<Effect>, lo: nat, mid: nat, hi: nat)
    requires lo <= mid <= hi
    requires FreshSpawns(e1, lo, mid) && FreshSpawns(e2, mid, hi)
    ensures FreshSpawns(e1 + e2, lo, hi)
  {
    var e := e1 + e2;
    forall i, j | 0 <= i < j < |e| && e[i].Spawn? && e[j].Spawn?
      ensures e[i].handle < e[j].handle
    {
      if j < |e1| {
        assert e[i] == e1[i] && e[j] == e1[j];
      } else if i < |e1| {
        assert e[i] == e1[i] && e[j] == e2[j - |e1|];
      } else {
        assert e[i] == e2[i - |e1|] && e[j] == e2[j - |e1|];
      }
    }
    forall i | 0 <= i < |e| && e[i].Spawn?
      ensures lo <= e[i].handle < hi
    {
      if i < |e1| {
        assert e[i] == e1[i];
      } else {
        assert e[i] == e2[i - |e1|];
      }
    }
  }

  /** The command line that plays one of the candidates of `w`. */
  predicate PlaysCandidate(argv: seq<string>, w: World) {
    && |argv| == |MpvBaseCommand| + 1
    && argv[..|MpvBaseCommand|] == MpvBaseCommand
    && argv[|MpvBaseCommand|] in Candidates(w)
  }

  /** The part of `start_random_video` after the forced stop: scan, select,
      and spawn the player on the selection, or clear `auto_restart` when
      there is nothing to play. */
  function ScanAndSpawn(s: State, w: World): (r: Step)
    ensures |Candidates(w)| == 0 ==> r == Step(s.(autoRestart := false), [])
    ensures |Candidates(w)| > 0 ==>
              && r.state.autoRestart
              && r.state.process == Some(s.nextHandle)
              && r.state.nextHandle == s.nextHandle + 1
              && |r.effects| == 1
              && r.effects[0].Spawn?
              && r.effects[0].handle == s.nextHandle
              && PlaysCandidate(r.effects[0].argv, w)
    ensures |Candidates(w)| > 0 ==>
              var sel := SelectFromCandidates(s.cache, w.stats, Candidates(w), w.draw, w.probe);
              && sel.video.Some?
              && r.state.cache == sel.cache
              && r.effects[0] == Spawn(s.nextHandle, MpvBaseCommand + [sel.video.value.path])
    ensures NoReap(r.effects)
    ensures s.nextHandle <= r.state.nextHandle && FreshSpawns(r.effects, s.nextHandle, r.state.nextHandle)
  {
    var candidates := Candidates(w);
    if |candidates| == 0 then
      Step(s.(autoRestart := false), [])
    else
      var selection := SelectFromCandidates(s.cache, w.stats, candidates, w.draw, w.probe);
      var st := s.(cache := selection.cache);
      match selection.video
      case None => Step(st.(autoRestart := false), [])
      case Some(v) =>
        var h := st.nextHandle;
        var argv := MpvBaseCommand + [v.path];
        assert argv[..|MpvBaseCommand|] == MpvBaseCommand;
        Step(st.(autoRestart := true, process := Some(h), nextHandle := h + 1), [Spawn(h, argv)])
  }

  /** `start_random_video`: a forced start first stops the held player;
      then it scans, selects and spawns. With nothing to play it clears
      `auto_restart` and spawns nothing. */
  function StartRandomVideo(s: State, force: bool, w: World): (r: Step)
    ensures force && s.process.Some? ==>
              && |r.effects| >= 1
              && r.effects[0] == Terminate(s.process.value)
              && r.effects[1..] == ScanAndSpawn(StopPlayback(s).state, w).effects
    ensures !(force && s.process.Some?) ==> r == ScanAndSpawn(s, w)
    ensures |Candidates(w)| == 0 ==>
              && !r.state.autoRestart
              && NoSpawn(r.effects)
              && r.state.process == (if force then None else s.process)
    ensures |Candidates(w)| > 0 ==>
              && r.state.autoRestart
              && r.state.process == Some(s.nextHandle)
              && r.effects[|r.effects| - 1] == Spawn(s.nextHandle, r.effects[|r.effects| - 1].argv)
              && PlaysCandidate(r.effects[|r.effects| - 1].argv, w)
    ensures |Candidates(w)| == 0 ==> r.state.cache == s.cache
    ensures |Candidates(w)| > 0 ==>
              var sel := SelectFromCandidates(s.cache, w.stats, Candidates(w), w.draw, w.probe);
              && sel.video.Some?
              && r.state.cache == sel.cache
              && r.effects[|r.effects| - 1] == Spawn(s.nextHandle, MpvBaseCommand + [sel.video.value.path])
    ensures NoReap(r.effects)
    ensures s.nextHandle <= r.state.nextHandle && FreshSpawns(r.effects, s.nextHandle, r.state.nextHandle)
  {
    if s.process.Some? && force then
      var stop := StopPlayback(s);
      var rest := ScanAndSpawn(stop.state, w);
      assert FreshSpawns(stop.effects, s.nextHandle, s.nextHandle);
      FreshSpawnsAppend(stop.effects, rest.effects, s.nextHandle, s.nextHandle, rest.state.nextHandle);
      Step(rest.state, stop.effects + rest.effects)
    else
      ScanAndSpawn(s, w)
  }

  datatype Command = StartCommand | StopCommand

  /** The command an event carries: a key-down of S is START, a key-down
      of E is STOP, and everything else (other event types, key-up,
      auto-repeat, other keys) is nothing. */
  function CommandOf(ev: Event): Option<Command> {
    if ev == Event(EvKey, KeyS, KeyDown) then Some(StartCommand)
    else if ev == Event(EvKey, KeyE, KeyDown) then Some(StopCommand)
    else None
  }

  /** `_handle_event`. */
  function HandleEvent(s: State, ev: Event, w: World): (r: Step)
    ensures CommandOf(ev) == None ==> r == Step(s, [])
    ensures CommandOf(ev) == Some(StartCommand) ==> r == StartRandomVideo(s, true, w)
    ensures CommandOf(ev) == Some(StopCommand) ==> r == StopPlayback(s)
    ensures NoReap(r.effects) && s.nextHandle <= r.state.nextHandle
    ensures FreshSpawns(r.effects, s.nextHandle, r.state.nextHandle)
  {
    if ev.evType != EvKey then Step(s, [])
    else if ev.value != KeyDown then Step(s, [])
    else if ev.code == KeyS then StartRandomVideo(s, true, w)
    else if ev.code == KeyE then StopPlayback(s)
    else Step(s, [])
  }

  /** The events of one iteration, handled in order. Handling events never
      reaps a player (only the exit check does), and every handle it spawns
      is newly issued from the counter, each at most once. */
  function HandleEvents(s: State, inputs: seq<Input>): (r: Step)
    ensures NoReap(r.effects)
    ensures s.nextHandle <= r.state.nextHandle
    ensures FreshSpawns(r.effects, s.nextHandle, r.state.nextHandle)
    decreases |inputs|
  {
    if |inputs| == 0 then Step(s, [])
    else
      var first := HandleEvent(s, inputs[0].event, inputs[0].world);
      var rest := HandleEvents(first.state, inputs[1..]);
      FreshSpawnsAppend(first.effects, rest.effects, s.nextHandle, first.state.nextHandle, rest.state.nextHandle);
      Step(rest.state, first.effects + rest.effects)
  }

  /** `_check_playback_exit`: nothing without a process or while it runs;
      on exit the process is released, and a new video is started (without
      forcing) only if `auto_restart` is set. */
  function CheckPlaybackExit(s: State, exited: bool, w: World): (r: Step)
    ensures s.process.None? || !exited ==> r == Step(s, [])
    ensures s.process.Some? && exited && !s.autoRestart ==>
              r == Step(s.(process := None), [Reaped(s.process.value)])
    ensures s.process.Some? && exited && s.autoRestart ==>
              var next := StartRandomVideo(s.(process := None), false, w);
              r == Step(next.state, [Reaped(s.process.value)] + next.effects)
  {
    if s.process.None? then Step(s, [])
    else if !exited then Step(s, [])
    else
      var h := s.process.value;
      var released := s.(process := None);
      if released.autoRestart then
        var next := StartRandomVideo(released, false, w);
        Step(next.state, [Reaped(h)] + next.effects)
      else Step(released, [Reaped(h)])
  }

  /** One iteration of `run`: events first, then the exit check. While the
      player runs the iteration is just its events; otherwise the effects
      of the events come first, and a player still held after them is
      reaped right after. */
  function Tick(s: State, t: TickInput): (r: Step)
    ensures !t.exited ==> r == HandleEvents(s, t.inputs)
    ensures var handled := HandleEvents(s, t.inputs);
            && |handled.effects| <= |r.effects|
            && r.effects[..|handled.effects|] == handled.effects
            && (t.exited && handled.state.process.Some? ==>
                  && |handled.effects| < |r.effects|
                  && r.effects[|handled.effects|] == Reaped(handled.state.process.value))
  {
    var handled := HandleEvents(s, t.inputs);
    var checked := CheckPlaybackExit(handled.state, t.exited, t.restartWorld);
    Step(checked.state, handled.effects + checked.effects)
  }

  function RunTicks(s: State, ticks: seq<TickInput>): Step
    decreases |ticks|
  {
    if |ticks| == 0 then Step(s, [])
    else
      var first := Tick(s, ticks[0]);
      var rest := RunTicks(first.state, ticks[1..]);
      Step(rest.state, first.effects + rest.effects)
  }

  /** `run` over the given iterations, until it is interrupted or a read
      raises; the `finally` clause stops playback. From any start state it
      ends with nothing held and `auto_restart` clear, after the effects of
      the iterations, and with the cache they left. */
  function Run(s: State, ticks: seq<TickInput>): (r: Step)
    ensures r.state.process.None? && !r.state.autoRestart
    ensures r.state.cache == RunTicks(s, ticks).state.cache
    ensures var ran := RunTicks(s, ticks);
            |ran.effects| <= |r.effects| && r.effects[..|ran.effects|] == ran.effects
  {
    var ran := RunTicks(s, ticks);
    var stopped := StopPlayback(ran.state);
    Step(stopped.state, ran.effects + stopped.effects)
  }

  // ---------------------------------------------------------------------
  // Process accounting

  /** One effect applied to the held processes; None when it misuses a
      handle: spawns one already held, or signals or reaps one not held. */
  function Apply(held: set<Handle>, e: Effect): Option<set<Handle>> {
    match e
    case Spawn(h, _) => if h in held then None else Some(held + {h})
    case Terminate(h) => if h in held then Some(held - {h}) else None
    case Reaped(h) => if h in held then Some(held - {h}) else None
  }

  /** The processes the controller is responsible for after `effects`,
      starting from `held`; None when some effect misuses a handle. */
  function Replay(held: set<Handle>, effects: seq<Effect>): Option<set<Handle>>
    decreases |effects|
  {
    if |effects| == 0 then Some(held)
    else
      match Apply(held, effects[0])
      case None => None
      case Some(next) => Replay(next, effects[1..])
  }

  lemma {:induction false} ReplayAppend(held: set<Handle>, e1: seq<Effect>, e2: seq<Effect>)
    ensures Replay(held, e1 + e2) ==
            match Replay(held, e1)
            case None => None
            case Some(mid) => Replay(mid, e2)
    decreases |e1|
  {
    if |e1| > 0 {
      assert (e1 + e2)[0] == e1[0];
      assert (e1 + e2)[1..] == e1[1..] + e2;
      match Apply(held, e1[0])
      case None =>
      case Some(next) => ReplayAppend(next, e1[1..], e2);
    } else {
      assert e1 + e2 == e2;
    }
  }

  /** Replaying `effects` from `held` never misuses a handle, and at no
      point, before or after any effect, are two processes held. A process
      is held from its spawn until it is signalled or reaped; one that was
      signalled but may still be shutting down no longer counts. */
  predicate NeverTwo(held: set<Handle>, effects: seq<Effect>)
    decreases |effects|
  {
    && |held| <= 1
    && if |effects| == 0 then true
       else
         match Apply(held, effects[0])
         case None => false
         case Some(next) => NeverTwo(next, effects[1..])
  }

  lemma {:induction false} NeverTwoAppend(held: set<Handle>, e1: seq<Effect>, mid: set<Handle>, e2: seq<Effect>)
    requires NeverTwo(held, e1) && Replay(held, e1) == Some(mid) && NeverTwo(mid, e2)
    ensures NeverTwo(held, e1 + e2)
    decreases |e1|
  {
    if |e1| > 0 {
      assert (e1 + e2)[0] == e1[0];
      assert (e1 + e2)[1..] == e1[1..] + e2;
      var next := Apply(held, e1[0]).value;
      NeverTwoAppend(next, e1[1..], mid, e2);
    } else {
      assert e1 + e2 == e2;
    }
  }

  /** `NeverTwo` read prefix by prefix: after every prefix of the effects
      the replay succeeds and at most one process is held. */
  lemma {:induction false} NeverTwoPrefixes(held: set<Handle>, effects: seq<Effect>)
    requires NeverTwo(held, effects)
    ensures forall k :: 0 <= k <= |effects| ==>
              Replay(held, effects[..k]).Some? && |Replay(held, effects[..k]).value| <= 1
    decreases |effects|
  {
    if |effects| > 0 {
      var next := Apply(held, effects[0]).value;
      NeverTwoPrefixes(next, effects[1..]);
      forall k | 0 <= k <= |effects|
        ensures Replay(held, effects[..k]).Some? && |Replay(held, effects[..k]).value| <= 1
      {
        if k > 0 {
          assert effects[..k][0] == effects[0];
          assert effects[..k][1..] == effects[1..][..k - 1];
        }
      }
    }
  }

  /** The effects take the processes from `held` to exactly `final`, with
      no misuse and never two held at once. */
  predicate Accounted(held: set<Handle>, effects: seq<Effect>, final: set<Handle>) {
    Replay(held, effects) == Some(final) && NeverTwo(held, effects)
  }

  lemma AccountedAppend(held: set<Handle>, e1: seq<Effect>, mid: set<Handle>, e2: seq<Effect>,
                        final: set<Handle>)
    requires Accounted(held, e1, mid) && Accounted(mid, e2, final)
    ensures Accounted(held, e1 + e2, final)
  {
    ReplayAppend(held, e1, e2);
    NeverTwoAppend(held, e1, mid, e2);
  }

  lemma AccountedNothing(held: set<Handle>)
    requires |held| <= 1
    ensures Accounted(held, [], held)
  {
  }

  lemma AccountedSpawnOne(h: Handle, argv: seq<string>)
    ensures Accounted({}, [Spawn(h, argv)], {h})
  {
    var none: set<Handle> := {};
    assert [Spawn(h, argv)][1..] == [];
    assert none + {h} == {h};
    assert Apply(none, Spawn(h, argv)) == Some({h});
  }

  lemma AccountedReleaseOne(h: Handle, e: Effect)
    requires e == Terminate(h) || e == Reaped(h)
    ensures Accounted({h}, [e], {})
  {
    assert [e][1..] == [];
    assert {h} - {h} == {};
    assert Apply({h}, e) == Some({});
  }

  /** The controller's invariant: `auto_restart` is set exactly while a
      player is held, and the held player's handle was issued. */
  predicate Inv(s: State) {
    && (s.autoRestart <==> s.process.Some?)
    && (s.process.Some? ==> s.process.value < s.nextHandle)
  }

  lemma InitialInv(persisted: Option<Json>)
    ensures Inv(Initial(persisted))
  {
  }

  /** `stop_playback` leaves nothing held and signals exactly the process it
      let go of. */
  lemma StopAccounts(s: State)
    requires Inv(s)
    ensures Inv(StopPlayback(s).state)
    ensures Accounted(Held(s), StopPlayback(s).effects, {})
  {
    if s.process.Some? {
      var h := s.process.value;
      AccountedReleaseOne(h, Terminate(h));
    }
  }

  /** Scanning and spawning with nothing held ends with at most the one new
      player held, and the `auto_restart` flag set exactly when it is. */
  lemma SpawnAccounts(s: State, w: World)
    requires Held(s) == {}
    ensures var r := ScanAndSpawn(s, w);
            Inv(r.state) && Accounted({}, r.effects, Held(r.state))
  {
    var r := ScanAndSpawn(s, w);
    if |Candidates(w)| > 0 {
      var e := r.effects[0];
      assert r.effects == [Spawn(s.nextHandle, e.argv)];
      AccountedSpawnOne(s.nextHandle, e.argv);
      assert Held(r.state) == {s.nextHandle};
    } else {
      assert r.effects == [] && r.state.process.None?;
      AccountedNothing({});
    }
  }

  /** A start that is forced or begins with nothing held ends with at most
      one held player, every other one signalled first: never two at once. */
  lemma StartAccounts(s: State, force: bool, w: World)
    requires s.process.Some? ==> s.process.value < s.nextHandle
    requires force || s.process.None?
    ensures var r := StartRandomVideo(s, force, w);
            Inv(r.state) && Accounted(Held(s), r.effects, Held(r.state))
  {
    var r := StartRandomVideo(s, force, w);
    if s.process.Some? {
      var h := s.process.value;
      var stopped := StopPlayback(s).state;
      SpawnAccounts(stopped, w);
      assert r.effects == [Terminate(h)] + r.effects[1..];
      AccountedReleaseOne(h, Terminate(h));
      AccountedAppend({h}, [Terminate(h)], {}, r.effects[1..], Held(r.state));
    } else {
      SpawnAccounts(s, w);
    }
  }

  lemma {:induction false} HandleEventsAccounts(s: State, inputs: seq<Input>)
    requires Inv(s)
    ensures var r := HandleEvents(s, inputs);
            Inv(r.state) && Accounted(Held(s), r.effects, Held(r.state))
    decreases |inputs|
  {
    if |inputs| == 0 {
      AccountedNothing(Held(s));
    } else {
      var first := HandleEvent(s, inputs[0].event, inputs[0].world);
      if CommandOf(inputs[0].event) == Some(StartCommand) {
        StartAccounts(s, true, inputs[0].world);
      } else if CommandOf(inputs[0].event) == Some(StopCommand) {
        StopAccounts(s);
      } else {
        AccountedNothing(Held(s));
      }
      HandleEventsAccounts(first.state, inputs[1..]);
      var rest := HandleEvents(first.state, inputs[1..]);
      AccountedAppend(Held(s), first.effects, Held(first.state), rest.effects, Held(rest.state));
    }
  }

  lemma CheckExitAccounts(s: State, exited: bool, w: World)
    requires Inv(s)
    ensures var r := CheckPlaybackExit(s, exited, w);
            Inv(r.state) && Accounted(Held(s), r.effects, Held(r.state))
  {
    if s.process.Some? && exited {
      var released := s.(process := None);
      StartAccounts(released, false, w);
      var next := StartRandomVideo(released, false, w);
      var h := s.process.value;
      AccountedReleaseOne(h, Reaped(h));
      AccountedAppend({h}, [Reaped(h)], {}, next.effects, Held(next.state));
    } else {
      AccountedNothing(Held(s));
    }
  }

  /** Each iteration keeps the invariant, and its effects account exactly
      for the change in held processes: no player is orphaned or signalled
      twice, and at no point within the iteration are two players held. */
  lemma TickAccounts(s: State, t: TickInput)
    requires Inv(s)
    ensures var r := Tick(s, t);
            Inv(r.state) && Accounted(Held(s), r.effects, Held(r.state))
  {
    var handled := HandleEvents(s, t.inputs);
    HandleEventsAccounts(s, t.inputs);
    CheckExitAccounts(handled.state, t.exited, t.restartWorld);
    var checked := CheckPlaybackExit(handled.state, t.exited, t.restartWorld);
    AccountedAppend(Held(s), handled.effects, Held(handled.state), checked.effects, Held(checked.state));
  }

  lemma {:induction false} RunTicksAccounts(s: State, ticks: seq<TickInput>)
    requires Inv(s)
    ensures var r := RunTicks(s, ticks);
            Inv(r.state) && Accounted(Held(s), r.effects, Held(r.state))
    decreases |ticks|
  {
    if |ticks| == 0 {
      AccountedNothing(Held(s));
    } else {
      var first := Tick(s, ticks[0]);
      TickAccounts(s, ticks[0]);
      RunTicksAccounts(first.state, ticks[1..]);
      var rest := RunTicks(first.state, ticks[1..]);
      AccountedAppend(Held(s), first.effects, Held(first.state), rest.effects, Held(rest.state));
    }
  }

  /** However the loop ends, every player the controller started has been
      signalled or seen to exit by the time `run` returns, and after no
      prefix of the run's effects are two players held. */
  lemma RunLeavesNothingBehind(persisted: Option<Json>, ticks: seq<TickInput>)
    ensures var r := Run(Initial(persisted), ticks);
            && r.state.process.None? && !r.state.autoRestart
            && Replay({}, r.effects) == Some({})
            && forall k :: 0 <= k <= |r.effects| ==>
                 Replay({}, r.effects[..k]).Some? && |Replay({}, r.effects[..k]).value| <= 1
  {
    var s := Initial(persisted);
    RunTicksAccounts(s, ticks);
    var ran := RunTicks(s, ticks);
    StopAccounts(ran.state);
    AccountedAppend({}, ran.effects, Held(ran.state), StopPlayback(ran.state).effects, {});
    NeverTwoPrefixes({}, Run(s, ticks).effects);
  }

  /** An iteration that observes the held player's exit, with something to
      play, starts the next video: the exit check after the events
      auto-advances onto a fresh handle. */
  lemma TickAdvances(s: State, t: TickInput)
    requires Inv(s) && t.exited
    requires HandleEvents(s, t.inputs).state.process.Some?
    requires |Candidates(t.restartWorld)| > 0
    ensures Tick(s, t).state.process == Some(HandleEvents(s, t.inputs).state.nextHandle)
    ensures Tick(s, t).state.autoRestart
  {
    HandleEventsAccounts(s, t.inputs);
    ExitAdvancesWhilePlaying(HandleEvents(s, t.inputs).state, t.restartWorld);
  }

  // ---------------------------------------------------------------------
  // STOP within a tick

  /** The command of the last event in `inputs` that carries one. */
  function LastCommand(inputs: seq<Input>): Option<Command>
    decreases |inputs|
  {
    if |inputs| == 0 then None
    else
      match LastCommand(inputs[1..])
      case Some(c) => Some(c)
      case None => CommandOf(inputs[0].event)
  }

  lemma {:induction false} NoCommandNoChange(s: State, inputs: seq<Input>)
    requires LastCommand(inputs) == None
    ensures HandleEvents(s, inputs) == Step(s, [])
    decreases |inputs|
  {
    if |inputs| > 0 {
      NoCommandNoChange(s, inputs[1..]);
    }
  }

  lemma {:induction false} LastStopLeavesIdle(s: State, inputs: seq<Input>)
    requires LastCommand(inputs) == Some(StopCommand)
    ensures HandleEvents(s, inputs).state.process.None?
    ensures !HandleEvents(s, inputs).state.autoRestart
    decreases |inputs|
  {
    var first := HandleEvent(s, inputs[0].event, inputs[0].world);
    if LastCommand(inputs[1..]).Some? {
      LastStopLeavesIdle(first.state, inputs[1..]);
    } else {
      NoCommandNoChange(first.state, inputs[1..]);
    }
  }

  /** A STOP that is the last command of an iteration wins over a player
      exit observed in the same iteration: the exit check finds nothing held
      and does nothing, so there is no auto-advance. */
  lemma StopBeatsExitInSameTick(s: State, t: TickInput)
    requires LastCommand(t.inputs) == Some(StopCommand)
    ensures Tick(s, t) == HandleEvents(s, t.inputs)
    ensures Tick(s, t).state.process.None? && !Tick(s, t).state.autoRestart
  {
    LastStopLeavesIdle(s, t.inputs);
    var handled := HandleEvents(s, t.inputs);
    assert handled.effects + [] == handled.effects;
  }

  /** An exit seen while `auto_restart` is clear starts nothing. Under `Inv`
      a held player always comes with `auto_restart` set, so no run of the
      controller reaches this case; the lemma covers the test of the flag
      for states outside the invariant. */
  lemma ExitWithoutAutoRestartSpawnsNothing(s: State, w: World)
    requires s.process.Some? && !s.autoRestart
    ensures CheckPlaybackExit(s, true, w).state.process.None?
    ensures NoSpawn(CheckPlaybackExit(s, true, w).effects)
  {
  }

  /** Under the invariant every observed exit triggers an auto-advance. */
  lemma ExitAdvancesWhilePlaying(s: State, w: World)
    requires Inv(s) && s.process.Some?
    requires |Candidates(w)| > 0
    ensures CheckPlaybackExit(s, true, w).state.process == Some(s.nextHandle)
    ensures CheckPlaybackExit(s, true, w).effects[0] == Reaped(s.process.value)
  {
  }
}

=== FILE: paths.dfy ===
/** Paths as the player's `pathlib.Path` values use them: canonical
    absolute strings, ordered the way `sorted()` orders `Path`s, and the
    file-name suffix that decides whether a file is a candidate video. */
module Paths {
  import opened Text

  type Path = string

  const Separator: char := '/'

  /** The extensions `scan_video_candidates` accepts, compared lower-cased. */
  const VideoExtensions: set<string> := {".mp4", ".mkv"}

  /** The components `Path` comparison works on: the path string split at
      every separator (`"/mnt/a"` gives `["", "mnt", "a"]`). */
  function Components(p: Path): (parts: seq<string>)
    ensures |parts| >= 1
  {
    SplitOn(p, Separator)
  }

  /** `p < q` for `Path` values: component lists compared lexicographically,
      which is not the same as comparing the strings (`/mnt/a/c` sorts
      before `/mnt/a-b`, because `-` precedes `/` only inside a component). */
  predicate PathLess(p: Path, q: Path) {
    PartsLess(Components(p), Components(q))
  }

  lemma PathLessIrreflexive(p: Path)
    ensures !PathLess(p, p)
  {
    PartsLessIrreflexive(Components(p));
  }

  lemma PathLessTransitive(p: Path, q: Path, r: Path)
    requires PathLess(p, q) && PathLess(q, r)
    ensures PathLess(p, r)
  {
    PartsLessTransitive(Components(p), Components(q), Components(r));
  }

  lemma PathLessAsymmetric(p: Path, q: Path)
    ensures PathLess(p, q) ==> !PathLess(q, p)
  {
    PartsLessAsymmetric(Components(p), Components(q));
  }

  lemma PathLessTotal(p: Path, q: Path)
    requires p != q
    ensures PathLess(p, q) || PathLess(q, p)
  {
    if Components(p) == Components(q) {
      SplitOnInjective(p, q, Separator);
    }
    PartsLessTotal(Components(p), Components(q));
  }

  /** `root / name`. */
  function Child(root: Path, name: string): (p: Path)
    ensures HasPrefix(p, root + [Separator])
  {
    root + [Separator] + name
  }

  /** `Path.name`: the last component. */
  function FileName(p: Path): string {
    var parts := Components(p);
    parts[|parts| - 1]
  }

  /** Position of the last `c` in `s`, or -1: `str.rfind`. */
  function LastIndexOf(s: string, c: char): (i: int)
    ensures -1 <= i < |s|
    ensures i >= 0 ==> s[i] == c
    ensures forall j :: i < j < |s| ==> s[j] != c
    decreases |s|
  {
    if |s| == 0 then -1
    else if s[|s| - 1] == c then |s| - 1
    else LastIndexOf(s[..|s| - 1], c)
  }

  /** `PurePath.suffix` of a file name: from the last dot on, provided the
      dot is neither the first nor the last character; otherwise empty. */
  function Suffix(name: string): string {
    var i := LastIndexOf(name, '.');
    if 0 < i < |name| - 1 then name[i..] else ""
  }

  /** `path.suffix.lower() in VIDEO_EXTENSIONS`, on the file name. */
  predicate IsVideoName(name: string) {
    Lower(Suffix(name)) in VideoExtensions
  }

  /** A name whose extension spells `k` with the Kelvin sign is a video, as
      `str.lower()` maps that sign to `k`. */
  lemma KelvinExtensionIsVideo()
    ensures IsVideoName("clip.m" + [KelvinSign] + "v")
  {
    var name := "clip.m" + [KelvinSign] + "v";
    assert name[..7][..6] == "clip.m";
    assert "clip.m"[..5] == "clip.";
    assert LastIndexOf("clip.", '.') == 4;
    assert LastIndexOf(name, '.') == 4;
    assert Lower(name[4..]) == ".mkv";
  }

  predicate IsVideoPath(p: Path) {
    IsVideoName(FileName(p))
  }

  /** A file name is a video name exactly when at least one character
      precedes a case-insensitive `.mp4` or `.mkv` ending; so a hidden file
      called `.mp4` is not a candidate, and `Clip.MKV` is. */
  lemma {:induction false} VideoNameShape(name: string)
    ensures IsVideoName(name) <==>
            (|name| >= 5 && Lower(name[|name| - 4..]) in VideoExtensions)
  {
    var i := LastIndexOf(name, '.');
    var ending := if |name| >= 4 then name[|name| - 4..] else "";
    if |name| >= 5 && Lower(ending) in VideoExtensions {
      assert Lower(ending)[0] == '.';
      assert name[|name| - 4] == '.';
      assert Lower(ending)[1] != '.' && Lower(ending)[2] != '.' && Lower(ending)[3] != '.';
      assert name[|name| - 3] == ending[1] && name[|name| - 2] == ending[2] && name[|name| - 1] == ending[3];
      assert i == |name| - 4;
    }
    if IsVideoName(name) {
      var sfx := Suffix(name);
      assert |sfx| == 4;
      assert 0 < i < |name| - 1;
      assert |name| - i == 4;
      assert sfx == ending;
    }
  }
}

=== FILE: selector.dfy ===
/** Choosing what to play: `select_video` over classified videos, and
    `select_video_from_candidates`, which consults the cache and falls back
    to classifying one uncached file. Random draws are inputs: a coin for
    `random.random() > 0.8` and an arbitrary index for each
    `random.choice`. */
module Selector {
  import opened Wrappers
  import opened Paths
  import opened Classifier
  import opened Cache

  datatype VideoInfo = VideoInfo(path: Path, bucket: string)

  /** The outcome of the random draws one selection may make:
      `preferMedium` is the coin `random.random() > 0.8`, consulted only
      when both `safe` and `medium` videos exist; `pick` and `uncachedPick`
      drive `random.choice` on the pool and on the uncached paths. */
  datatype Draw = Draw(preferMedium: bool, pick: nat, uncachedPick: nat)

  /** `random.choice(xs)`: the element the draw lands on. */
  function Choice<T>(xs: seq<T>, pick: nat): (x: T)
    requires |xs| > 0
    ensures x in xs
  {
    xs[pick % |xs|]
  }

  lemma ChoiceAt<T>(xs: seq<T>, i: nat)
    requires i < |xs|
    ensures Choice(xs, i) == xs[i]
  {
  }

  /** Every element is the choice of some draw. */
  lemma ChoiceReaches<T>(xs: seq<T>, x: T)
    requires x in xs
    ensures exists pick: nat :: Choice(xs, pick) == x
  {
    var i :| 0 <= i < |xs| && xs[i] == x;
    assert Choice(xs, i) == x;
  }

  /** `[v for v in videos if v.bucket == name]`. */
  function WithBucket(videos: seq<VideoInfo>, name: string): (r: seq<VideoInfo>)
    ensures forall v :: v in r <==> v in videos && v.bucket == name
    ensures |r| <= |videos|
  {
    if |videos| == 0 then []
    else
      var rest := WithBucket(videos[1..], name);
      assert forall v :: v in videos <==> v == videos[0] || v in videos[1..];
      if videos[0].bucket == name then [videos[0]] + rest else rest
  }

  predicate HasBucket(videos: seq<VideoInfo>, name: string) {
    exists v :: v in videos && v.bucket == name
  }

  lemma HasBucketIffNonEmpty(videos: seq<VideoInfo>, name: string)
    ensures HasBucket(videos, name) <==> |WithBucket(videos, name)| > 0
  {
    if HasBucket(videos, name) {
      var v :| v in videos && v.bucket == name;
      assert v in WithBucket(videos, name);
    }
    if |WithBucket(videos, name)| > 0 {
      assert WithBucket(videos, name)[0] in WithBucket(videos, name);
    }
  }

  /** The pool `select_video` draws from, stated as a condition on one
      video: with a `safe` video present the pool is `safe`, or `medium`
      when the coin came up and a `medium` video exists; otherwise
      `medium`, else `risky`, else any video at all (cached buckets may be
      arbitrary strings). */
  predicate Eligible(videos: seq<VideoInfo>, preferMedium: bool, v: VideoInfo) {
    && v in videos
    && if HasBucket(videos, "safe") then
         if preferMedium && HasBucket(videos, "medium") then v.bucket == "medium"
         else v.bucket == "safe"
       else if HasBucket(videos, "medium") then v.bucket == "medium"
       else if HasBucket(videos, "risky") then v.bucket == "risky"
       else true
  }

  /** The list `select_video` hands to `random.choice`, following its
      branches in order. */
  function Pool(videos: seq<VideoInfo>, preferMedium: bool): (pool: seq<VideoInfo>)
    ensures |videos| > 0 ==> |pool| > 0
  {
    var safe := WithBucket(videos, "safe");
    var medium := WithBucket(videos, "medium");
    var risky := WithBucket(videos, "risky");
    if |safe| > 0 then
      if |medium| > 0 && preferMedium then medium else safe
    else if |medium| > 0 then medium
    else if |risky| > 0 then risky
    else videos
  }

  /** The filtered lists hold exactly the eligible videos. */
  lemma PoolIsEligible(videos: seq<VideoInfo>, preferMedium: bool)
    ensures forall v :: v in Pool(videos, preferMedium) <==> Eligible(videos, preferMedium, v)
  {
    HasBucketIffNonEmpty(videos, "safe");
    HasBucketIffNonEmpty(videos, "medium");
    HasBucketIffNonEmpty(videos, "risky");
  }

  /** `select_video`. */
  function SelectVideo(videos: seq<VideoInfo>, draw: Draw): (r: Option<VideoInfo>)
    ensures r.None? <==> |videos| == 0
    ensures r.Some? ==> Eligible(videos, draw.preferMedium, r.value)
  {
    if |videos| == 0 then None
    else
      PoolIsEligible(videos, draw.preferMedium);
      Some(Choice(Pool(videos, draw.preferMedium), draw.pick))
  }

  /** Conversely, every eligible video is the selection under some draw of
      the index: the pool is exactly the eligible videos, and each of them
      can be chosen. */
  lemma SelectVideoReachesEligible(videos: seq<VideoInfo>, preferMedium: bool, v: VideoInfo)
    requires Eligible(videos, preferMedium, v)
    ensures exists pick: nat :: SelectVideo(videos, Draw(preferMedium, pick, 0)) == Some(v)
  {
    PoolIsEligible(videos, preferMedium);
    var pool := Pool(videos, preferMedium);
    var i: nat :| i < |pool| && pool[i] == v;
    ChoiceAt(pool, i);
    var d := Draw(preferMedium, i, 0);
    assert SelectVideo(videos, d) == Some(Choice(pool, i));
  }

  // ---------------------------------------------------------------------
  // select_video_from_candidates

  /** The candidates with a valid cache hit, with their cached buckets, in
      candidate order. */
  function CachedPool(cache: ClassificationCache, stats: StatTable, candidates: seq<Path>)
    : (pool: seq<VideoInfo>)
    ensures forall v :: v in pool <==>
              v.path in candidates && CachedBucketFor(cache, stats, v.path) == Some(v.bucket)
  {
    if |candidates| == 0 then []
    else
      var rest := CachedPool(cache, stats, candidates[1..]);
      assert forall p :: p in candidates <==> p == candidates[0] || p in candidates[1..];
      match CachedBucketFor(cache, stats, candidates[0])
      case None => rest
      case Some(b) => [VideoInfo(candidates[0], b)] + rest
  }

  /** The candidates without a valid cache hit, in candidate order. */
  function Uncached(cache: ClassificationCache, stats: StatTable, candidates: seq<Path>)
    : (rest: seq<Path>)
    ensures forall p :: p in rest <==> p in candidates && CachedBucketFor(cache, stats, p).None?
  {
    if |candidates| == 0 then []
    else
      var tail := Uncached(cache, stats, candidates[1..]);
      assert forall p :: p in candidates <==> p == candidates[0] || p in candidates[1..];
      if CachedBucketFor(cache, stats, candidates[0]).None? then [candidates[0]] + tail else tail
  }

  /** Every candidate lands in exactly one of the two pools. */
  lemma {:induction false} PartitionSizes(cache: ClassificationCache, stats: StatTable, candidates: seq<Path>)
    ensures |CachedPool(cache, stats, candidates)| + |Uncached(cache, stats, candidates)| == |candidates|
  {
    if |candidates| > 0 {
      PartitionSizes(cache, stats, candidates[1..]);
    }
  }

  /** A selection and the cache as it stands afterwards. */
  datatype Selection = Selection(video: Option<VideoInfo>, cache: ClassificationCache)

  predicate HasCachedHit(cache: ClassificationCache, stats: StatTable, candidates: seq<Path>) {
    exists p :: p in candidates && CachedBucketFor(cache, stats, p).Some?
  }

  lemma CachedHitIffPool(cache: ClassificationCache, stats: StatTable, candidates: seq<Path>)
    ensures HasCachedHit(cache, stats, candidates) <==> |CachedPool(cache, stats, candidates)| > 0
  {
    var pool := CachedPool(cache, stats, candidates);
    if HasCachedHit(cache, stats, candidates) {
      var p :| p in candidates && CachedBucketFor(cache, stats, p).Some?;
      assert VideoInfo(p, CachedBucketFor(cache, stats, p).value) in pool;
    }
    if |pool| > 0 {
      assert pool[0] in pool;
    }
  }

  /** `select_video_from_candidates`. `probe` is what the external probe
      reports for the one uncached file the draw picks; it is consulted
      only when no candidate has a valid cache hit. */
  function SelectFromCandidates(cache: ClassificationCache, stats: StatTable, candidates: seq<Path>,
                                draw: Draw, probe: Probe): (s: Selection)
    ensures s.video.None? <==> |candidates| == 0
    ensures s.video.Some? ==> s.video.value.path in candidates
    ensures HasCachedHit(cache, stats, candidates) ==>
              && s.cache == cache
              && s.video.Some?
              && CachedBucketFor(cache, stats, s.video.value.path) == Some(s.video.value.bucket)
              && Eligible(CachedPool(cache, stats, candidates), draw.preferMedium, s.video.value)
    ensures !HasCachedHit(cache, stats, candidates) && |candidates| > 0 ==>
              && s.video.Some?
              && s.video.value.bucket == Classify(probe).Label()
              && s.cache == UpdateCache(cache, stats, s.video.value.path, s.video.value.bucket)
  {
    var pool := CachedPool(cache, stats, candidates);
    var uncached := Uncached(cache, stats, candidates);
    PartitionSizes(cache, stats, candidates);
    CachedHitIffPool(cache, stats, candidates);
    if |pool| > 0 && SelectVideo(pool, draw).Some? then
      Selection(SelectVideo(pool, draw), cache)
    else if |uncached| > 0 then
      var p := Choice(uncached, draw.uncachedPick);
      var bucket := Classify(probe).Label();
      Selection(Some(VideoInfo(p, bucket)), UpdateCache(cache, stats, p, bucket))
    else
      Selection(None, cache)
  }

  /** On a cold start every uncached candidate is the probed one under some
      draw. */
  lemma ColdStartReachesAnyUncached(cache: ClassificationCache, stats: StatTable, candidates: seq<Path>,
                                    coin: bool, pick: nat, probe: Probe, p: Path)
    requires !HasCachedHit(cache, stats, candidates)
    requires p in candidates
    ensures exists k: nat ::
              SelectFromCandidates(cache, stats, candidates, Draw(coin, pick, k), probe).video
                == Some(VideoInfo(p, Classify(probe).Label()))
  {
    var uncached := Uncached(cache, stats, candidates);
    assert p in uncached;
    var i: nat :| i < |uncached| && uncached[i] == p;
    CachedHitIffPool(cache, stats, candidates);
    ChoiceAt(uncached, i);
    assert SelectFromCandidates(cache, stats, candidates, Draw(coin, pick, i), probe).video
             == Some(VideoInfo(p, Classify(probe).Label()));
  }

  /** On a cold start the probed file, when it can be stat'ed, is a cache
      hit afterwards with the bucket the probe gave it. */
  lemma ColdStartRecordsProbe(cache: ClassificationCache, stats: StatTable, candidates: seq<Path>,
                              draw: Draw, probe: Probe)
    requires !HasCachedHit(cache, stats, candidates)
    requires |candidates| > 0
    ensures var s := SelectFromCandidates(cache, stats, candidates, draw, probe);
            && s.video.Some?
            && (s.video.value.path in stats ==>
                  CachedBucketFor(s.cache, stats, s.video.value.path) == Some(Classify(probe).Label()))
  {
    var s := SelectFromCandidates(cache, stats, candidates, draw, probe);
    LookupAfterUpdate(cache, stats, s.video.value.path, s.video.value.path, Classify(probe).Label());
  }
}

=== FILE: storage.dfy ===
/** Finding what to play: `_discover_usb_mounts` over the lines of the
    mount table and the listings of the scan roots, and
    `scan_video_candidates` over the recursive listing of each mount. */
module Storage {
  import opened Wrappers
  import opened Text
  import opened Paths

  /** Block devices whose mounts count as USB storage. */
  const UsbDevicePrefix: string := "/dev/sd"

  /** File systems a USB stick is expected to carry. */
  const AllowedFilesystems: set<string> := {"vfat", "exfat", "ntfs", "ext4", "ext3", "ext2"}

  /** Directories whose sub-directories are scanned whether or not they are
      mount points, in the order they are visited. */
  const ScanRoots: seq<Path> := ["/media", "/run/media", "/mnt"]

  /** One entry of `root.iterdir()`, with what `entry.is_dir()` reported. */
  datatype DirEntry = DirEntry(name: string, isDir: bool)

  /** One path yielded by `mount.rglob("*")`, with what `path.is_file()`
      reported. */
  datatype FileEntry = FileEntry(path: Path, isFile: bool)

  // ---------------------------------------------------------------------
  // Mount-table lines

  /** The mount point one mount-table line contributes: its second field,
      when the line has at least three fields, the first names a `/dev/sd`
      device and the third an allowed file system. */
  function MountFromLine(line: string): (r: Option<Path>)
    ensures r.Some? <==>
              && |Words(line)| >= 3
              && HasPrefix(Words(line)[0], UsbDevicePrefix)
              && Words(line)[2] in AllowedFilesystems
    ensures r.Some? ==> r.value == Words(line)[1]
  {
    var parts := Words(line);
    if |parts| < 3 then None
    else if !HasPrefix(parts[0], UsbDevicePrefix) then None
    else if parts[2] in AllowedFilesystems then Some(parts[1])
    else None
  }

  /** A line written as its fields separated by spaces
      (`source mountpoint fstype options...`) contributes its mount point
      exactly when it has at least three fields, the source is a `/dev/sd`
      device and the type is allowed; otherwise it contributes nothing. */
  lemma MountLineFields(fields: seq<string>)
    requires forall i :: 0 <= i < |fields| ==> IsWord(fields[i])
    ensures MountFromLine(Unwords(fields)) ==
            if |fields| >= 3 && HasPrefix(fields[0], UsbDevicePrefix) && fields[2] in AllowedFilesystems
            then Some(fields[1]) else None
  {
    WordsUnwords(fields);
  }

  /** The mount points the table lines contribute, in line order. */
  function TableMounts(lines: seq<string>): (r: seq<Path>)
    ensures forall p :: p in r <==> exists line :: line in lines && MountFromLine(line) == Some(p)
  {
    if |lines| == 0 then []
    else
      var rest := TableMounts(lines[1..]);
      assert forall line :: line in lines <==> line == lines[0] || line in lines[1..];
      match MountFromLine(lines[0])
      case None => rest
      case Some(p) => [p] + rest
  }

  // ---------------------------------------------------------------------
  // Scan-root sub-directories

  /** `p` is a sub-directory of `root`, which exists and is listed in `listings`. */
  ghost predicate RootChild(listings: map<Path, seq<DirEntry>>, root: Path, p: Path) {
    root in listings && exists e :: e in listings[root] && e.isDir && p == Child(root, e.name)
  }

  /** `root / entry.name` for every directory entry of one listing. */
  function SubDirectories(root: Path, entries: seq<DirEntry>): (r: seq<Path>)
    ensures forall p :: p in r <==> exists e :: e in entries && e.isDir && p == Child(root, e.name)
  {
    if |entries| == 0 then []
    else
      var rest := SubDirectories(root, entries[1..]);
      assert forall e :: e in entries <==> e == entries[0] || e in entries[1..];
      if entries[0].isDir then [Child(root, entries[0].name)] + rest else rest
  }

  /** The sub-directories of every root that exists; `listings` maps each
      existing root to its `iterdir()` entries, and a root absent from it
      does not exist. */
  function RootMounts(roots: seq<Path>, listings: map<Path, seq<DirEntry>>): (r: seq<Path>)
    ensures forall p :: p in r <==> exists root :: root in roots && RootChild(listings, root, p)
  {
    if |roots| == 0 then []
    else
      var here := if roots[0] in listings then SubDirectories(roots[0], listings[roots[0]]) else [];
      var rest := RootMounts(roots[1..], listings);
      assert forall root :: root in roots <==> root == roots[0] || root in roots[1..];
      assert forall p :: p in here <==> RootChild(listings, roots[0], p);
      here + rest
  }

  // ---------------------------------------------------------------------
  // sorted(set(...))

  /** Increasing in `Path` order, hence free of duplicates. */
  ghost predicate StrictlySorted(xs: seq<Path>) {
    forall i, j :: 0 <= i < j < |xs| ==> PathLess(xs[i], xs[j])
  }

  lemma HeadBelowTail(xs: seq<Path>)
    requires StrictlySorted(xs) && |xs| > 0
    ensures forall y :: y in xs[1..] ==> PathLess(xs[0], y)
  {
    forall y | y in xs[1..]
      ensures PathLess(xs[0], y)
    {
      var k :| 0 <= k < |xs[1..]| && xs[1..][k] == y;
      assert xs[k + 1] == y;
    }
  }

  lemma ConsSorted(x: Path, ys: seq<Path>)
    requires StrictlySorted(ys)
    requires forall y :: y in ys ==> PathLess(x, y)
    ensures StrictlySorted([x] + ys)
  {
    var zs := [x] + ys;
    forall i, j | 0 <= i < j < |zs|
      ensures PathLess(zs[i], zs[j])
    {
      if i == 0 {
        assert zs[j] == ys[j - 1];
      } else {
        assert zs[i] == ys[i - 1] && zs[j] == ys[j - 1];
      }
    }
  }

  /** Adds `p` to a sorted, duplicate-free sequence, keeping it so. */
  function Insert(xs: seq<Path>, p: Path): (r: seq<Path>)
    requires StrictlySorted(xs)
    ensures StrictlySorted(r)
    ensures forall q :: q in r <==> q in xs || q == p
    decreases |xs|
  {
    if |xs| == 0 then [p]
    else if p == xs[0] then xs
    else
      HeadBelowTail(xs);
      assert forall q :: q in xs <==> q == xs[0] || q in xs[1..];
      if PathLess(p, xs[0]) then
        forall y | y in xs
          ensures PathLess(p, y)
        {
          if y != xs[0] {
            PathLessTransitive(p, xs[0], y);
          }
        }
        ConsSorted(p, xs);
        [p] + xs
      else
        PathLessTotal(p, xs[0]);
        assert StrictlySorted(xs[1..]);
        var rest := Insert(xs[1..], p);
        ConsSorted(xs[0], rest);
        [xs[0]] + rest
  }

  /** `sorted(set(xs))`. */
  function SortedSet(xs: seq<Path>): (r: seq<Path>)
    ensures StrictlySorted(r)
    ensures forall q :: q in r <==> q in xs
  {
    if |xs| == 0 then []
    else
      var rest := SortedSet(xs[1..]);
      assert forall q :: q in xs <==> q == xs[0] || q in xs[1..];
      Insert(rest, xs[0])
  }

  lemma SortedStartsWithLeast(xs: seq<Path>, q: Path)
    requires StrictlySorted(xs) && q in xs
    ensures q == xs[0] || PathLess(xs[0], q)
  {
    var k :| 0 <= k < |xs| && xs[k] == q;
  }

  /** A sorted duplicate-free sequence is determined by its elements, so the
      result of `sorted(set)` does not depend on the order the set was
      filled in. */
  lemma {:induction false} SortedUnique(a: seq<Path>, b: seq<Path>)
    requires StrictlySorted(a) && StrictlySorted(b)
    requires forall q :: q in a <==> q in b
    ensures a == b
    decreases |a|
  {
    if |a| > 0 || |b| > 0 {
      assert |a| > 0 ==> a[0] in b;
      assert |b| > 0 ==> b[0] in a;
      SortedStartsWithLeast(a, b[0]);
      SortedStartsWithLeast(b, a[0]);
      PathLessAsymmetric(a[0], b[0]);
      HeadBelowTail(a);
      HeadBelowTail(b);
      PathLessIrreflexive(a[0]);
      assert forall q :: q in a <==> q == a[0] || q in a[1..];
      assert forall q :: q in b <==> q == b[0] || q in b[1..];
      assert StrictlySorted(a[1..]) && StrictlySorted(b[1..]);
      SortedUnique(a[1..], b[1..]);
      assert a == [a[0]] + a[1..];
      assert b == [b[0]] + b[1..];
    }
  }

  // ---------------------------------------------------------------------
  // _discover_usb_mounts and scan_video_candidates

  /** `_discover_usb_mounts`. `table` holds the mount-table lines, or is None
      when the table file does not exist. The result is sorted, free of
      duplicates, and holds exactly the accepted table mount points and the
      sub-directories of the existing scan roots. */
  function DiscoverUsbMounts(table: Option<seq<string>>, listings: map<Path, seq<DirEntry>>)
    : (r: seq<Path>)
    ensures StrictlySorted(r)
    ensures forall p :: p in r <==>
              || (table.Some? && exists line :: line in table.value && MountFromLine(line) == Some(p))
              || (exists root :: root in ScanRoots && RootChild(listings, root, p))
  {
    var fromTable := if table.Some? then TableMounts(table.value) else [];
    SortedSet(fromTable + RootMounts(ScanRoots, listings))
  }

  /** Every existing scan root's sub-directory is scanned, and a missing
      mount table removes only the table's contribution. */
  lemma RootChildrenAlwaysScanned(table: Option<seq<string>>, listings: map<Path, seq<DirEntry>>,
                                  root: Path, e: DirEntry)
    requires root in ScanRoots && root in listings && e in listings[root] && e.isDir
    ensures Child(root, e.name) in DiscoverUsbMounts(table, listings)
    ensures Child(root, e.name) in DiscoverUsbMounts(None, listings)
  {
    assert RootChild(listings, root, Child(root, e.name));
  }

  /** A video among the files `rglob` listed under mount `m`. */
  ghost predicate VideoUnder(trees: map<Path, seq<FileEntry>>, m: Path, p: Path) {
    m in trees && FileEntry(p, true) in trees[m] && IsVideoPath(p)
  }

  function VideoFiles(entries: seq<FileEntry>): (r: seq<Path>)
    ensures forall p :: p in r <==> FileEntry(p, true) in entries && IsVideoPath(p)
  {
    if |entries| == 0 then []
    else
      var rest := VideoFiles(entries[1..]);
      assert forall e :: e in entries <==> e == entries[0] || e in entries[1..];
      if entries[0].isFile && IsVideoPath(entries[0].path) then [entries[0].path] + rest else rest
  }

  /** `scan_video_candidates` over the discovered mounts: `trees` maps a
      mount to what `mount.rglob("*")` yields (nothing for a mount absent
      from it); the candidates are its files with a video extension, mount
      by mount. */
  function ScanCandidates(mounts: seq<Path>, trees: map<Path, seq<FileEntry>>): (r: seq<Path>)
    ensures forall p :: p in r <==> exists m :: m in mounts && VideoUnder(trees, m, p)
  {
    if |mounts| == 0 then []
    else
      var here := if mounts[0] in trees then VideoFiles(trees[mounts[0]]) else [];
      var rest := ScanCandidates(mounts[1..], trees);
      assert forall m :: m in mounts <==> m == mounts[0] || m in mounts[1..];
      assert forall p :: p in here <==> VideoUnder(trees, mounts[0], p);
      here + rest
  }
}

=== FILE: text.dfy ===
/** The few Python `str` operations the player relies on, over `seq<char>`
    (characters are Unicode scalar values, compared by code point). */
module Text {

  /** Python's `str.isspace()`: the characters `str.split()` with no
      argument splits on. */
  predicate IsSpace(c: char) {
    || ('\U{9}' <= c <= '\U{D}')
    || ('\U{1C}' <= c <= '\U{20}')
    || c == '\U{85}' || c == '\U{A0}' || c == '\U{1680}'
    || ('\U{2000}' <= c <= '\U{200A}')
    || c == '\U{2028}' || c == '\U{2029}' || c == '\U{202F}'
    || c == '\U{205F}' || c == '\U{3000}'
  }

  /** A non-empty run of non-space characters, as `str.split()` returns. */
  predicate IsWord(w: string) {
    |w| > 0 && forall i :: 0 <= i < |w| ==> !IsSpace(w[i])
  }

  /** The KELVIN SIGN, the one non-ASCII character whose lower-case form is
      a single ASCII letter (`k`). */
  const KelvinSign: char := '\U{212A}'

  /** Lower-cases ASCII letters and the Kelvin sign, and leaves every other
      character alone. */
  function LowerChar(c: char): (r: char)
    ensures 'A' <= c <= 'Z' ==> r as int == c as int + 32
    ensures c == KelvinSign ==> r == 'k'
    ensures !('A' <= c <= 'Z') && c != KelvinSign ==> r == c
  {
    if 'A' <= c <= 'Z' then (c as int + 32) as char
    else if c == KelvinSign then 'k'
    else c
  }

  /** `s.lower()`, restricted to the characters that can lower-case to ASCII. */
  function Lower(s: string): (r: string)
    ensures |r| == |s|
    ensures forall i :: 0 <= i < |s| ==> r[i] == LowerChar(s[i])
  {
    seq(|s|, i requires 0 <= i < |s| => LowerChar(s[i]))
  }

  /** `s.startswith(p)`. */
  predicate HasPrefix(s: string, p: string) {
    |p| <= |s| && s[..|p|] == p
  }

  /** `pat in s`: some window of `s` spells `pat`. */
  ghost predicate OccursAt(s: string, pat: string, i: int) {
    0 <= i && i + |pat| <= |s| && s[i..i + |pat|] == pat
  }

  /** `pat in s`, computed by sliding a window along `s`. */
  function Contains(s: string, pat: string): (r: bool)
    ensures r <==> exists i :: OccursAt(s, pat, i)
    decreases |s|
  {
    if |s| < |pat| then false
    else if s[..|pat|] == pat then (assert OccursAt(s, pat, 0); true)
    else
      var r := Contains(s[1..], pat);
      assert r ==> exists i :: OccursAt(s, pat, i) by {
        if r {
          var j :| OccursAt(s[1..], pat, j);
          assert s[j + 1..j + 1 + |pat|] == s[1..][j..j + |pat|];
          assert OccursAt(s, pat, j + 1);
        }
      }
      assert (exists i :: OccursAt(s, pat, i)) ==> r by {
        if exists i :: OccursAt(s, pat, i) {
          var j :| OccursAt(s, pat, j);
          assert j != 0;
          assert s[1..][j - 1..j - 1 + |pat|] == s[j..j + |pat|];
          assert OccursAt(s[1..], pat, j - 1);
        }
      }
      r
  }

  /** A pattern whose first character never appears in `s` is not in `s`. */
  lemma ContainsNeedsFirstChar(s: string, pat: string)
    requires |pat| > 0 && pat[0] !in s
    ensures !Contains(s, pat)
  {
    forall i
      ensures !OccursAt(s, pat, i)
    {
      if 0 <= i && i + |pat| <= |s| {
        assert s[i..i + |pat|][0] == s[i];
      }
    }
  }

  // ---------------------------------------------------------------------
  // str.split() with no argument

  /** The maximal run of non-space characters at the start of `s`. */
  function LeadingWord(s: string): (w: string)
    ensures |w| <= |s| && w == s[..|w|]
    ensures forall i :: 0 <= i < |w| ==> !IsSpace(w[i])
    ensures |w| < |s| ==> IsSpace(s[|w|])
    ensures |s| > 0 && !IsSpace(s[0]) ==> |w| > 0
    decreases |s|
  {
    if |s| == 0 || IsSpace(s[0]) then [] else [s[0]] + LeadingWord(s[1..])
  }

  /** `s.split()`: the maximal runs of non-space characters, in order;
      leading, trailing and repeated whitespace produce no empty fields. */
  function Words(s: string): (ws: seq<string>)
    ensures forall i :: 0 <= i < |ws| ==> IsWord(ws[i])
    decreases |s|
  {
    if |s| == 0 then []
    else if IsSpace(s[0]) then Words(s[1..])
    else
      var w := LeadingWord(s);
      [w] + Words(s[|w|..])
  }

  /** `" ".join(ws)`. */
  function Unwords(ws: seq<string>): string {
    if |ws| == 0 then ""
    else if |ws| == 1 then ws[0]
    else ws[0] + " " + Unwords(ws[1..])
  }

  lemma {:induction false} LeadingWordOf(w: string, t: string)
    requires forall i :: 0 <= i < |w| ==> !IsSpace(w[i])
    requires t == [] || IsSpace(t[0])
    ensures LeadingWord(w + t) == w
    decreases |w|
  {
    if |w| > 0 {
      assert (w + t)[1..] == w[1..] + t;
      LeadingWordOf(w[1..], t);
    }
  }

  /** The leading word of `a` stays the leading word when `t` is appended,
      provided it ends inside `a` or `t` starts with a space. */
  lemma {:induction false} LeadingWordExtend(a: string, t: string)
    requires |LeadingWord(a)| < |a| || t == [] || IsSpace(t[0])
    ensures LeadingWord(a + t) == LeadingWord(a)
    decreases |a|
  {
    if |a| == 0 {
      assert a + t == t;
    } else if !IsSpace(a[0]) {
      assert (a + t)[0] == a[0];
      assert (a + t)[1..] == a[1..] + t;
      LeadingWordExtend(a[1..], t);
    } else {
      assert (a + t)[0] == a[0];
    }
  }

  /** A single word splits to itself. */
  lemma WordsOfWord(w: string)
    requires IsWord(w)
    ensures Words(w) == [w]
  {
    LeadingWordOf(w, []);
    assert w + [] == w;
    assert w[|w|..] == [];
  }

  /** Any whitespace character separates: splitting at it splits the two
      sides independently. With `Words("") == []` and `WordsOfWord` this
      fixes `Words` on every string, whatever the runs of whitespace. */
  lemma {:induction false} WordsSplitAtSpace(a: string, c: char, b: string)
    requires IsSpace(c)
    ensures Words(a + [c] + b) == Words(a) + Words(b)
    decreases |a|
  {
    var s := a + [c] + b;
    if |a| == 0 {
      assert s == [c] + b;
      assert s[1..] == b;
    } else if IsSpace(a[0]) {
      assert s[0] == a[0];
      assert s[1..] == a[1..] + [c] + b;
      WordsSplitAtSpace(a[1..], c, b);
    } else {
      assert s == a + ([c] + b);
      LeadingWordExtend(a, [c] + b);
      var w := LeadingWord(a);
      assert s[0] == a[0];
      assert s[|w|..] == a[|w|..] + [c] + b;
      WordsSplitAtSpace(a[|w|..], c, b);
      assert Words(s) == [w] + Words(s[|w|..]);
      assert Words(a) == [w] + Words(a[|w|..]);
    }
  }

  /** Splitting a line that was written as words separated by single
      spaces gives the words back. */
  lemma {:induction false} WordsUnwords(ws: seq<string>)
    requires forall i :: 0 <= i < |ws| ==> IsWord(ws[i])
    ensures Words(Unwords(ws)) == ws
    decreases |ws|
  {
    if |ws| == 1 {
      LeadingWordOf(ws[0], []);
      assert ws[0] + [] == ws[0];
      assert ws[0][|ws[0]|..] == [];
    } else if |ws| > 1 {
      var rest := Unwords(ws[1..]);
      var s := ws[0] + " " + rest;
      assert s == ws[0] + (" " + rest);
      LeadingWordOf(ws[0], " " + rest);
      assert s[|ws[0]|..] == " " + rest;
      assert (" " + rest)[1..] == rest;
      WordsUnwords(ws[1..]);
      assert ws == [ws[0]] + ws[1..];
    }
  }

  // ---------------------------------------------------------------------
  // Python's ordering of str values and of lists of str

  /** Python's `a < b` on str: lexicographic by code point, and a proper
      prefix sorts first. */
  predicate StrLess(a: string, b: string)
    decreases |a|
  {
    if |a| == 0 then |b| > 0
    else if |b| == 0 then false
    else if a[0] != b[0] then a[0] < b[0]
    else StrLess(a[1..], b[1..])
  }

  lemma {:induction false} StrLessIrreflexive(a: string)
    ensures !StrLess(a, a)
    decreases |a|
  {
    if |a| > 0 {
      StrLessIrreflexive(a[1..]);
    }
  }

  lemma {:induction false} StrLessTransitive(a: string, b: string, c: string)
    requires StrLess(a, b) && StrLess(b, c)
    ensures StrLess(a, c)
    decreases |a|
  {
    if |a| > 0 && a[0] == b[0] && b[0] == c[0] {
      StrLessTransitive(a[1..], b[1..], c[1..]);
    }
  }

  lemma {:induction false} StrLessTotal(a: string, b: string)
    requires a != b
    ensures StrLess(a, b) || StrLess(b, a)
    decreases |a|
  {
    if |a| > 0 && |b| > 0 && a[0] == b[0] {
      assert a == [a[0]] + a[1..];
      assert b == [b[0]] + b[1..];
      StrLessTotal(a[1..], b[1..]);
    }
  }

  lemma {:induction false} StrLessAsymmetric(a: string, b: string)
    ensures StrLess(a, b) ==> !StrLess(b, a)
    decreases |a|
  {
    if |a| > 0 && |b| > 0 && a[0] == b[0] {
      StrLessAsymmetric(a[1..], b[1..]);
    }
  }

  /** Python's `a < b` on lists of str: lexicographic, element by element. */
  predicate PartsLess(a: seq<string>, b: seq<string>)
    decreases |a|
  {
    if |a| == 0 then |b| > 0
    else if |b| == 0 then false
    else if a[0] != b[0] then StrLess(a[0], b[0])
    else PartsLess(a[1..], b[1..])
  }

  lemma {:induction false} PartsLessIrreflexive(a: seq<string>)
    ensures !PartsLess(a, a)
    decreases |a|
  {
    if |a| > 0 {
      PartsLessIrreflexive(a[1..]);
    }
  }

  lemma {:induction false} PartsLessTransitive(a: seq<string>, b: seq<string>, c: seq<string>)
    requires PartsLess(a, b) && PartsLess(b, c)
    ensures PartsLess(a, c)
    decreases |a|
  {
    if |a| > 0 {
      if a[0] == b[0] && b[0] == c[0] {
        PartsLessTransitive(a[1..], b[1..], c[1..]);
      } else if a[0] != b[0] && b[0] != c[0] {
        StrLessTransitive(a[0], b[0], c[0]);
        StrLessIrreflexive(a[0]);
      }
    }
  }

  lemma {:induction false} PartsLessAsymmetric(a: seq<string>, b: seq<string>)
    ensures PartsLess(a, b) ==> !PartsLess(b, a)
    decreases |a|
  {
    if |a| > 0 && |b| > 0 {
      if a[0] == b[0] {
        PartsLessAsymmetric(a[1..], b[1..]);
      } else {
        StrLessAsymmetric(a[0], b[0]);
      }
    }
  }

  lemma {:induction false} PartsLessTotal(a: seq<string>, b: seq<string>)
    requires a != b
    ensures PartsLess(a, b) || PartsLess(b, a)
    decreases |a|
  {
    if |a| > 0 && |b| > 0 {
      if a[0] == b[0] {
        assert a == [a[0]] + a[1..];
        assert b == [b[0]] + b[1..];
        PartsLessTotal(a[1..], b[1..]);
      } else {
        StrLessTotal(a[0], b[0]);
      }
    }
  }

  // ---------------------------------------------------------------------
  // str.split(sep) with a single-character separator

  /** `s.split(sep)`: always at least one field; empty fields are kept. */
  function SplitOn(s: string, sep: char): (parts: seq<string>)
    ensures |parts| >= 1
    decreases |s|
  {
    if |s| == 0 then [""]
    else
      var rest := SplitOn(s[1..], sep);
      if s[0] == sep then [""] + rest
      else [[s[0]] + rest[0]] + rest[1..]
  }

  /** `sep.join(parts)`. */
  function JoinOn(parts: seq<string>, sep: char): string
    requires |parts| >= 1
  {
    if |parts| == 1 then parts[0] else parts[0] + [sep] + JoinOn(parts[1..], sep)
  }

  /** Joining the fields of a split gives the string back, so distinct
      strings have distinct splits. */
  lemma {:induction false} JoinSplit(s: string, sep: char)
    ensures JoinOn(SplitOn(s, sep), sep) == s
    decreases |s|
  {
    if |s| > 0 {
      var rest := SplitOn(s[1..], sep);
      JoinSplit(s[1..], sep);
      if s[0] == sep {
        assert ([""] + rest)[1..] == rest;
        assert s == [sep] + s[1..];
      } else {
        var parts := [[s[0]] + rest[0]] + rest[1..];
        if |rest| == 1 {
          assert s == [s[0]] + s[1..];
        } else {
          assert parts[1..] == rest[1..];
          assert s == [s[0]] + s[1..];
        }
      }
    }
  }

  lemma SplitOnInjective(s: string, t: string, sep: char)
    requires SplitOn(s, sep) == SplitOn(t, sep)
    ensures s == t
  {
    JoinSplit(s, sep);
    JoinSplit(t, sep);
  }
}

=== FILE: wrappers.dfy ===
/** Optional values, used wherever the player returns `None` or a value. */
module Wrappers {

  datatype Option<+T> = None | Some(value: T) {

    /** Returns the wrapped value, or `default` for None. */
    function GetOr(default: T): T {
      match this
      case Some(v) => v
      case None => default
    }
  }
}
